=== FILE: README.md ===
# DeepSeek relay bot, modelled in Dafny

`bot.py` is a Discord bot. It relays messages posted in private
`deepseek-…` channels to the DeepSeek chat-completions API and posts the
answers back. This project models the bot's logic as pure Dafny functions
and proves what that logic guarantees:

- **Splitter** (`splitter.dfy`) is the long-reply splitter of `on_message`.
  - A reply over 2000 characters is cut into pieces of at most 1990.
  - Each cut prefers the last newline, then the last space, else it hard-cuts.
  - This holds for the last stretch too: a rest that fits in one message is still cut at its last newline.
  - A code-fence parity guard can pull a cut back.
  - The whitespace after each cut is skipped.
  - When sending, blank parts are dropped and the others are stripped.
  - The loop is a `method` with invariants. Its pieces are described by the recursive function `Pieces`.
- **FencePairing** (`fences.dfy`) runs the splitter on a reply made only of code fences joined by newlines, with no newline after the last. That is the shape the reply has once stripped. It proves how far the fence-parity guard keeps fences paired: no fence marker is torn, but when the number of fences is even, the last pair is split over two messages.
- **Completion** (`completion.dfy`) is `get_deepseek_response` applied to a reply that has already been received and classified. The reply is one of: a transport failure, an undecodable body, or a decoded body with its status. The result is the pair `(display, second)` that the Python function returns.
- **History** (`history.dfy`) is the per-channel conversation store: a map from channel id to a `deque(maxlen=MAX_HISTORY)`. It covers:
  - FIFO eviction, against the reference definition `Latest`;
  - building the request;
  - the update rule after a call;
  - `/clear_history` and `/close_chat`.
- **Relay** (`relay.dfy`) is the whole handler `on_message` as one step. It takes a store and a message and returns the new store, the request sent and the messages posted. The API is a function parameter.
- **ActiveModel** (`models.dfy`) is the active model id: its initial value and the `/set_model` command.
- **ChannelNames** (`channelnames.dfy`) is the name the "create chat" button gives a new private channel.
- **AdminRoles** (`adminroles.dfy`) is the parser for the `ADMIN_ROLE_IDS` setting.
- **Text** (`text.dfy`) holds the Python `str` operations the bot uses, and **Options** (`options.dfy`) models `None`/value and Python truthiness.
  - `isspace` is the exact Python 3 set of whitespace characters.
  - `strip`, `rfind`, `count`, `in`, `split`, `int` and `str` are defined on top of it.

Dafny strings are sequences of Unicode scalar values. Python strings are sequences of code points, which may also include lone surrogates. For any text without lone surrogates, `len` and the limits 2000 and 1990 mean the same thing here as in the bot.

## Model

| member | source | states |
|---|---|---|
| Splitter.Preferred | bot.py:290-291 | The cut point lies strictly after the cursor and within the window. It is the last newline strictly after the cursor in the window. Failing that, it is the last space there. Failing that, it is the window's end. |
| Splitter.Cut | bot.py:290-293 | The cut actually used never moves later than the preferred one and stays strictly after the cursor. If the piece holds an even number of fences, the cut is unchanged. If the count is odd, the cut moves to the last newline strictly after the cursor and before the preferred cut minus one; when there is no such newline, it stays. |
| Splitter.FenceTestIsParity | bot.py:293 | The guard's `"```" in chunk` test is implied by its odd-count test, so the guard fires exactly on an odd fence count. |
| Splitter.SkipSpace | bot.py:295 | After a cut, the cursor skips exactly the maximal run of whitespace that follows. |
| Splitter.NextSplit | bot.py:290-293 | The loop body's computation of the split index equals `Cut` and lies in `(pos, pos + 1990]`. |
| Splitter.SplitLong | bot.py:288-295 | The splitting loop returns the texts of `Pieces`. Each part is non-empty and at most 1990 characters, so the cursor strictly advances and the loop ends. |
| Splitter.PiecesSound | bot.py:288-295 | Reconstruction: the pieces, each followed by its skipped gap, concatenate back to the input. Every gap is whitespace. Every piece is 1..1990 characters. Every piece after the first starts with a non-space. There are no more pieces than characters. |
| Splitter.Sendable | bot.py:296-299 | There are never more messages than parts. Each message is non-empty and starts with a non-space. |
| Splitter.NoBlankPartSent | bot.py:296-299 | When no part is blank, the messages are exactly the parts, each stripped, one per part, in order. |
| Splitter.SendableSelects | bot.py:296-299 | The messages are exactly the non-blank parts, stripped, in their order. An increasing list of the indices of all non-blank parts, and only those, gives for each message the part it comes from. |
| Splitter.Deliver | bot.py:285-299 | A displayable reply becomes messages of at most 2000 characters, none of them empty. The reply is sent unsplit exactly when it fits in one message. |
| Splitter.DeliverKeepsVisibleText | bot.py:285-299 | Read in order, the posted messages contain exactly the reply's non-whitespace characters, in order. |
| Splitter.NoBlankPieceWhenTrimmed | bot.py:296-297 | For a reply that starts with a non-space, no piece is blank, so the blank-part filter drops nothing. |
| Splitter.HardCutsOf4500 | bot.py:288-295 | 4500 non-whitespace characters are cut at 1990, 3980 and 4500. |
| Splitter.EarlyNewlineCostsAPiece | bot.py:288-295 | A newline at index 1 of a 3980-character reply yields three pieces, not two. The number of pieces is not bounded by the length divided by 1990, rounded up. |
| FencePairing.CutOfFenceBlock | bot.py:290-293 | On `k` fences joined by newlines, the cut from the start of fence `m` falls on the newline after fence `m + Advance(k, m) - 1`. While more than 497 fences remain, the window holds 497, an odd count, so the guard pulls the cut back to 496. Once the rest fits, the cut still falls on the last newline, before the last fence. With an odd rest that leaves an even count, which stays. With an even rest of four or more it leaves an odd count, and the guard pulls the cut back one more fence. With one or two fences left, one fence goes. |
| FencePairing.PiecesOfFenceBlock | bot.py:288-295 | The splitter's pieces of a run of fences equal the independent definition `FencePieces`, which advances `Advance(k, m)` fences per piece. Each piece is a block of whole fences followed by one newline, and the last piece by nothing. |
| FencePairing.FencesStayPaired | bot.py:288-295 | On `k` fences joined by newlines, no cut tears a fence marker. Each piece is whole fences, every gap but the last is one newline, and the last gap is empty. There are pieces exactly when `k > 0`. The last piece is a single fence. When `k` is odd, every other piece holds an even number of fences. When `k` is even and positive, the piece before the last is a single fence too, so the last pair is torn over two pieces, and every piece before those two is even. |
| FencePairing.EvenRunOf502 | bot.py:288-295 | A reply of 502 fences (2007 characters) goes out as 496 fences, 4 fences, and then its last two fences one by one. |
| Splitter.FinalWindowStillCut | bot.py:290 | When the rest of the reply fits one window but holds a newline after the cursor, the window's end is the reply's end, and the preferred cut is still that last newline. The cut falls there unless the fence guard pulls it back, and in either case it falls before the end. When the reply ends in a visible character, the rest is posted as at least two pieces. |
| Splitter.ClosingBlockInFour | bot.py:288-299 | 1990 visible characters without a backtick followed by "b\n```\nx\n```" (2001 in all) are posted as four messages: the first 1990 characters, "b\n```", "x" and the closing fence alone. |
| Splitter.CutOff | bot.py:290 | The window's end lies strictly after the cursor and at most 1990 past it. It is either the reply's end or exactly 1990 past the cursor. |
| Splitter.Pieces | bot.py:288-295 | There are pieces exactly while text is left after the cursor, and never more pieces than characters left. The other properties of the pieces are in `Splitter.PiecesSound`. |
| Splitter.SkipWhitespace | bot.py:295 | The skipping loop stops exactly where `SkipSpace` says: at the first non-whitespace character at or after the cut, or at the end. |
| Completion.ApiErrorReport | bot.py:66-69 | A non-200 report starts with the status line. It continues with the API's `error.message` when there is one, else with the "unknown error (status N)" text. It ends with the format hint when the status is 400. For any other status it is the prefix and the message and nothing else. |
| Completion.FullText | bot.py:57-60 | The combined text is empty exactly when neither a reasoning trace nor the answer has anything to show. With both present it starts with the labelled, fenced reasoning followed by the answer label. With only one present it is that one, stripped. |
| Completion.Answer | bot.py:52-63 | For a 200 reply with a first choice, display is present exactly when the combined text is non-empty. The history text is the stripped answer, or None when the answer is empty. The reasoning never reaches the history text. A reasoning-only reply shows the stripped reasoning. An empty result is reported as incomplete. |
| Completion.Shape | bot.py:41-72 | Success happens exactly for a decoded 200 body with a first choice that has something to show. Every other path gives no display and a non-empty report, one fixed report per path: connection, timeout, other exception, undecodable body, non-200 status, 200 without choices. |
| Completion.ShownReasoning | bot.py:55-56 | The reasoning field is read only for `deepseek-reasoner`. For every other model it counts as absent, and for the reasoner it is the field as received. |
| Completion.ReasoningOnlyForReasoner | bot.py:55-56 | For every model except `deepseek-reasoner`, the reasoning field changes nothing in the outcome. |
| Completion.ReasonerScenario | bot.py:52-63 | A reasoner reply with reasoning "step1..." and answer "42" displays both, labelled, and keeps "42" for the history. |
| Completion.BadRequestScenario | bot.py:66-69 | A 400 with message "invalid request" reports `API 调用出错 (状态400): invalid request` plus the hint. |
| History.Push | bot.py:281-282 | Appending to a bounded deque keeps the latest `cap` entries of the log plus the new turn, in order. The new turn is last, and the length is `min(len + 1, cap)`. |
| History.PushAllKeepsLatest | bot.py:269 | Any sequence of appends to a deque within its bound leaves exactly the most recent `cap` turns of the whole history, oldest first (FIFO eviction). |
| History.Open | bot.py:269-270 | A channel without a history gets an empty deque. Existing histories are untouched. |
| History.Request | bot.py:272-273 | The request is the stored turns followed by exactly one new user turn holding the prompt. |
| History.Record | bot.py:280-283 | Without a display the log is unchanged. With one, the user turn is appended, then the assistant turn only when the history text is non-empty, keeping the latest `cap` turns. |
| History.Clear | bot.py:171-174 | An existing history is emptied and its key kept. A missing one is reported as not found, and the store is unchanged. Other channels are unchanged. |
| History.Remove | bot.py:245-248 | Closing a channel removes its history if present and leaves every other channel's history as it was. |
| History.StoreOperationsStayBounded | bot.py:269-283 | Opening, recording, clearing and removing all keep every log within the bound. |
| History.ThreeExchangesKeepTwo | bot.py:280-283 | With a bound of 4, three full exchanges leave the second and third. |
| Relay.PromptOf | bot.py:257-265 | A message is ignored exactly when it is from a bot, is outside a `deepseek-` text channel, is blank, or looks like a slash command. Otherwise the prompt is the stripped text. |
| Relay.Posts | bot.py:284-301 | A successful outcome posts the delivered display text. A failure posts one error notice carrying the report. Nothing posted is ever empty. |
| Relay.Handle | bot.py:255-273 | An ignored message changes nothing: no request, no post, the store as it was. Otherwise the request is the channel's history plus the user turn, and the channel's key is present afterwards. |
| Relay.HandleFrame | bot.py:268-282 | Whatever the call returns, no other channel's history changes, and every history stays within its bound. |
| Relay.HandlePostsText | bot.py:278-301 | Whatever the call returns, no posted message is empty. |
| Relay.HandleOutcome | bot.py:269-301 | After a failed call the channel's history is unchanged and one error notice is posted. After a success the split display is posted and the history is updated by the append rule. |
| Relay.HistoryIgnoresReasoning | bot.py:55-63 | Two successful 200 replies whose first choices differ only in their reasoning agree on success and on the answer kept, so they record the same history. |
| Relay.SameRecordSameStore | bot.py:268-282 | Two calls whose outcomes agree on success and on the answer kept leave the same store. |
| Relay.FailureKeepsHistory | bot.py:269-283 | A failed call leaves the store as it was, except for the empty deque the handler opens beforehand. |
| ActiveModel.InitialModel | bot.py:22-29 | The start-up model is always available. It is the configured one when that is available, else the default. |
| ActiveModel.SetModel | bot.py:205-226 | The reply follows the checks in order: inside a server, then permission, then already active, then available. The model changes exactly when all of them pass, and then becomes the chosen one. |
| ActiveModel.ActiveStaysAvailable | bot.py:219-226 | No sequence of `/set_model` commands takes the active model outside the available models. |
| ActiveModel.OnlyAuthorisedSwitch | bot.py:209-214 | Commands from callers without permission never change the active model. |
| ActiveModel.RequestsUseAvailableModel | bot.py:28-29 | Whatever the setting and the commands that follow, the model in use is available. |
| ChannelNames.Clean | bot.py:91 | The cleaned display name is no longer than the original and holds no space and no upper-case ASCII letter. |
| ChannelNames.CleanAllKept | bot.py:91 | When every character is kept, the cleaned name has the same length, and each character is the original one with a space turned into a hyphen and lower-cased. |
| ChannelNames.CleanSelects | bot.py:91 | The cleaned name is exactly the kept characters (hyphens, spaces and word characters), each dashed and lower-cased, in their order. An increasing list of all kept positions, and only those, gives for each character the position it comes from. |
| ChannelNames.UserPart | bot.py:91 | An empty cleaned name is replaced by "user", so the user part is never empty. |
| ChannelNames.ChannelName | bot.py:92 | The channel name starts with `deepseek-` and holds no space and no upper-case ASCII letter. |
| ChannelNames.ChannelNameParts | bot.py:92 | The name ends with a hyphen and at most four digits. Those digits read back as the user id mod 10000, and between the prefix and the hyphen lies the user part. |
| ChannelNames.CleanIdempotent | bot.py:91 | Cleaning an already cleaned name changes nothing. |
| ChannelNames.CreatedChannelIsAnswered | bot.py:92 | The handler answers a non-blank, non-command message in a channel the button created. |
| AdminRoles.ParseRoleIds | bot.py:33-34 | The setting is cut at commas and never gives more ids than fields. A setting without a comma is one field: it gives that field's decimal value when it is all digits once stripped, and no id otherwise. |
| AdminRoles.RoleIds | bot.py:34 | There are never more ids than fields. |
| AdminRoles.AllNumericFields | bot.py:34 | When every field is all digits once stripped, the ids are the fields' decimal values, one per field, in order. |
| AdminRoles.NoNumericFields | bot.py:34 | When no field is all digits once stripped, there are no ids. |
| AdminRoles.RoleIdsSelects | bot.py:34 | The ids are exactly the decimal values of the fields that are all digits once stripped, in field order. An increasing list of the positions of all such fields, and only those, gives for each id the field it comes from. |
| AdminRoles.ParseShowRoleIds | bot.py:34 | Parsing comma-joined decimal ids gives back exactly those ids, including the empty list from an empty setting. |
| AdminRoles.SkipsNonNumericFields | bot.py:34 | `" 12,x,,7"` parses to `[12, 7]`. |
| Text.Strip | bot.py:262 | Python's `strip()`: the result is no longer than the input. It is empty exactly when the input is all whitespace, and otherwise it neither starts nor ends with whitespace. |
| Text.StripIsSlice | bot.py:262 | The stripped text is a slice of the input, and what it drops on either side is whitespace only. |
| Text.StripIdempotent | bot.py:297-299 | Stripping twice is stripping once. |
| Text.RFind | bot.py:290-293 | Python's `rfind(c, lo, hi)`: the result is -1 or an index in `[lo, hi)` that holds `c`. On -1 no index in the range holds `c`; otherwise no later index in the range does. |
| Text.CountFences | bot.py:293 | The contract states only bounds: a positive count means the text contains a fence, and three times the count is at most the length. The body is Python's non-overlapping, left-to-right count of "```"; `FencePairing.FenceBlockCount` checks it against a run of fences. |
| Text.SplitOn | bot.py:34 | Python's `split(",")`: at least one field, no field holds the separator, and joining the fields with it gives back the input. |
| Text.SplitJoin | bot.py:34 | Splitting text joined from separator-free fields gives back exactly those fields. |
| Text.IsSpace | bot.py:295 | No contract of its own: the predicate is the definition of Python 3's `isspace` on one character, the 29 characters `\t`..`\r`, `\x1c`..`\x1f`, space, `\x85`, `\xa0`, `\u1680`, `\u2000`..`\u200a`, `\u2028`, `\u2029`, `\u202f`, `\u205f` and `\u3000`. |
| Text.DecimalValue | bot.py:34 | No contract of its own: it is the definition of `int()` on ASCII digits. What it promises is stated by `Text.DecimalValueShowNat` and `Text.LeadingZeroIgnored`. |
| Text.DecimalValueShowNat | bot.py:34 | `int()` reads back what `str()` writes for every natural number. |
| Text.LeadingZeroIgnored | bot.py:34 | As with Python's `int()`, a leading zero does not change the value read. |
| Text.ShowNat | bot.py:92 | `str(n)` of a natural number is non-empty, all ASCII digits, with no leading zero unless it is "0". |
| Text.ShowInt | bot.py:66-69 | `str(i)` of an integer is non-empty. It is all digits for `i >= 0`, and a minus sign followed by digits for `i < 0`. |

## Left out

- Discord wiring is left out because it is glue over an SDK whose code is not part of this model. This covers:
  - events and slash-command registration;
  - the button view, embeds, permission overwrites, and creating and deleting channels;
  - `setup_hook`/`on_ready`, `/help`, `/list_models` and `/setup_panel`;
  - the channel-name gate of `/clear_history` and `/close_chat`.
- The HTTP exchange and JSON decoding are abstracted.
  - The aiohttp request, its 300-second timeout and the exception classes are the `Reply` variants `ConnectFailed`, `TimedOut` and `Crashed`.
  - A parsed body is reduced to its `choices`, `error.message`, and the `str()` of the whole body (`rendered`).
- Logging, reading configuration from the environment, `asyncio.sleep` between parts, and `typing()` are left out. `MAX_HISTORY` and the model id are parameters, and the API is a function parameter of `Relay.Handle`.
- Concurrency is left out. Two messages in one channel may interleave between building the request and updating the history; each handler run is modelled as atomic.
- The handler's catch-all exception branch (bot.py:302-305) is left out: the model has no exceptions.
- Malformed JSON shapes are left out. These include an `error.message` that is present but `null`, a non-string `content`, and a non-dict body, all of which make the Python code raise or print "None".
- ChannelNames.Clean: lower-cases ASCII letters only. Python's `lower()` also maps other scripts, and can map one character to several.
- ChannelNames.Clean: the regular-expression class `\w` is a parameter `isWord`, not Unicode's word-character table.
- AdminRoles.RoleIds: treats only ASCII digits as digits. Python's `isdigit` also accepts other digit characters, for which `int()` may then raise.
- Text.RFind: models non-negative bounds only. The bot never passes negative ones.

## Behaviour worth knowing

The code is modelled as written throughout. These behaviours are worth knowing:

- A reply with reasoning but an empty final answer still appends the user turn, without an assistant turn (bot.py:281-283). See `History.Record` and `Relay.HandleOutcome`.
- The empty deque is created before the API call (bot.py:269). A failed first message therefore leaves an empty history behind, and `/clear_history` then reports "cleared" rather than "not found". See `Relay.FailureKeepsHistory`.
- The number of pieces the splitter cuts is not bounded by the reply length over 1990, rounded up: an early newline costs a piece (`Splitter.EarlyNewlineCostsAPiece`). The splitter still terminates, and every piece is at most 1990 characters.
- The rest of a reply is cut even when it fits in one message (bot.py:290). The split index is the last newline after the cursor, whatever length is left. So a reply that closes with a short code block after nearly a full window goes out as four messages, the closing fence alone in the last (`Splitter.FinalWindowStillCut`, `Splitter.ClosingBlockInFour`).
- For the same reason, the fence guard keeps fences paired only up to the last pair. When a run of fences has an even count, its last two fences are posted as two single-fence messages (`FencePairing.FencesStayPaired`, `FencePairing.EvenRunOf502`).

=== FILE: adminroles.dfy ===
/**
  The `ADMIN_ROLE_IDS` setting (bot.py:33-34): a comma-separated list of
  Discord role ids. Fields that are not all digits once stripped are skipped
  silently; the rest are read as decimal numbers.
*/
module AdminRoles {
  import opened Text

  /** The ids read from already split fields, in order, skipping non-numeric fields. */
  function RoleIds(fields: seq<string>): (ids: seq<nat>)
    ensures |ids| <= |fields|
    decreases |fields|
  {
    if fields == [] then []
    else
      var f := Strip(fields[0]);
      (if IsDigits(f) then [DecimalValue(f)] else []) + RoleIds(fields[1..])
  }

  /** A field the parser keeps: all digits once stripped. */
  predicate NumericField(field: string) {
    IsDigits(Strip(field))
  }

  /** The id a kept field gives; a skipped field's value is never used. */
  function FieldValue(field: string): nat {
    if NumericField(field) then DecimalValue(Strip(field)) else 0
  }

  /** The parser is the filtered map that reads the numeric fields. */
  lemma {:induction false} RoleIdsIsFilterMap(fields: seq<string>)
    ensures RoleIds(fields) == FilterMap(fields, NumericField, FieldValue)
    decreases |fields|
  {
    if fields != [] {
      RoleIdsIsFilterMap(fields[1..]);
    }
  }

  /**
    The ids are the values of the numeric fields, in their order: there is an
    increasing list of exactly the numeric fields' positions whose `j`-th
    entry is the field the `j`-th id is read from.
  */
  lemma RoleIdsSelects(fields: seq<string>) returns (idx: seq<nat>)
    ensures Selection(fields, NumericField, idx)
    ensures |idx| == |RoleIds(fields)|
    ensures forall j :: 0 <= j < |idx| ==>
      idx[j] < |fields| && IsDigits(Strip(fields[idx[j]])) && RoleIds(fields)[j] == DecimalValue(Strip(fields[idx[j]]))
  {
    RoleIdsIsFilterMap(fields);
    idx := FilterMapSelects(fields, NumericField, FieldValue);
  }

  /** When every field is all digits once stripped, each field gives its value, in order. */
  lemma AllNumericFields(fields: seq<string>)
    requires forall i :: 0 <= i < |fields| ==> IsDigits(Strip(fields[i]))
    ensures |RoleIds(fields)| == |fields|
    ensures forall i :: 0 <= i < |fields| ==>
      IsDigits(Strip(fields[i])) && RoleIds(fields)[i] == DecimalValue(Strip(fields[i]))
  {
    RoleIdsIsFilterMap(fields);
    FilterMapAllKept(fields, NumericField, FieldValue);
  }

  /** When no field is all digits once stripped, there are no ids. */
  lemma NoNumericFields(fields: seq<string>)
    requires forall i :: 0 <= i < |fields| ==> !IsDigits(Strip(fields[i]))
    ensures RoleIds(fields) == []
  {
    RoleIdsIsFilterMap(fields);
    FilterMapNoneKept(fields, NumericField, FieldValue);
  }

  /**
    bot.py:34: the setting cut at commas, and the fields that are all digits
    once stripped read as numbers. A setting without a comma is one field:
    it gives its one id when it is all digits once stripped, and nothing
    otherwise.
  */
  function ParseRoleIds(setting: string): (ids: seq<nat>)
    ensures |ids| <= |SplitOn(setting, ',')|
    ensures ',' !in setting && IsDigits(Strip(setting)) ==> ids == [DecimalValue(Strip(setting))]
    ensures ',' !in setting && !IsDigits(Strip(setting)) ==> ids == []
  {
    var fields := SplitOn(setting, ',');
    assert ',' !in setting ==> fields == [setting] && fields[1..] == [] by {
      if ',' !in setting {
        SplitOnNoSeparator(setting, ',');
      }
    }
    RoleIds(fields)
  }

  /** Each id written in decimal. */
  function ShowAll(ids: seq<nat>): (fields: seq<string>)
    ensures |fields| == |ids|
    ensures forall i :: 0 <= i < |ids| ==> fields[i] == ShowNat(ids[i])
    decreases |ids|
  {
    if ids == [] then [] else [ShowNat(ids[0])] + ShowAll(ids[1..])
  }

  /** The setting an operator would write for these ids: their decimal forms joined by commas. */
  function ShowRoleIds(ids: seq<nat>): string {
    Join(ShowAll(ids), ',')
  }

  /** Decimal fields are read back as the numbers they were written from. */
  lemma {:induction false} RoleIdsShowAll(ids: seq<nat>)
    ensures RoleIds(ShowAll(ids)) == ids
    decreases |ids|
  {
    if ids != [] {
      var s := ShowNat(ids[0]);
      StripTrimmed(s);
      DecimalValueShowNat(ids[0]);
      RoleIdsShowAll(ids[1..]);
      assert ShowAll(ids)[1..] == ShowAll(ids[1..]);
    }
  }

  /** Parsing the comma-joined decimal ids gives back exactly those ids, the empty list included. */
  lemma ParseShowRoleIds(ids: seq<nat>)
    ensures ParseRoleIds(ShowRoleIds(ids)) == ids
  {
    var fields := ShowAll(ids);
    if ids == [] {
      assert SplitOn("", ',') == [""];
    } else {
      forall i | 0 <= i < |fields|
        ensures ',' !in fields[i]
      {
        assert IsDigits(fields[i]);
      }
      SplitJoin(fields, ',');
    }
    RoleIdsShowAll(ids);
  }

  /** Spaces around an id are tolerated; an empty or non-numeric field is skipped. */
  lemma SkipsNonNumericFields(setting: string)
    requires setting == " 12,x,,7"
    ensures ParseRoleIds(setting) == [12, 7]
  {
    SplitExample(setting);
    ReadExample(SplitOn(setting, ','));
  }

  // The example is worked out one step per lemma. Each literal is a parameter
  // fixed by `requires`, so the solver unfolds `SplitOn`, `Strip` and `RoleIds`
  // on one small piece at a time rather than on the whole setting.

  lemma SplitExample(s: string)
    requires s == " 12,x,,7"
    ensures SplitOn(s, ',') == [" 12", "x", "", "7"]
  {
    var tail := s[4..];
    assert s == " 12" + [','] + tail;
    SplitOnPrefix(" 12", ',', tail);
    SplitTail(tail);
  }

  lemma SplitTail(s: string)
    requires s == "x,,7"
    ensures SplitOn(s, ',') == ["x", "", "7"]
  {
    var rest := s[2..];
    assert s == "x" + [','] + rest;
    assert rest == "" + [','] + "7";
    SplitOnPrefix("x", ',', rest);
    SplitOnPrefix("", ',', "7");
    SplitOnNoSeparator("7", ',');
  }

  lemma ReadExample(fields: seq<string>)
    requires fields == [" 12", "x", "", "7"]
    ensures RoleIds(fields) == [12, 7]
  {
    SpacedField(fields[0]);
    WordField(fields[1]);
    EmptyField(fields[2]);
    DigitField(fields[3]);
    RoleIdsCons(fields[3], []);
    assert fields[3..] == [fields[3]] + [];
    RoleIdsCons(fields[2], fields[3..]);
    assert fields[2..] == [fields[2]] + fields[3..];
    RoleIdsCons(fields[1], fields[2..]);
    assert fields[1..] == [fields[1]] + fields[2..];
    RoleIdsCons(fields[0], fields[1..]);
    assert fields == [fields[0]] + fields[1..];
  }

  lemma RoleIdsCons(f: string, rest: seq<string>)
    ensures RoleIds([f] + rest) == (if IsDigits(Strip(f)) then [DecimalValue(Strip(f))] else []) + RoleIds(rest)
  {
    assert ([f] + rest)[1..] == rest;
  }

  lemma SpacedField(f: string)
    requires f == " 12"
    ensures Strip(f) == "12" && IsDigits(Strip(f)) && DecimalValue(Strip(f)) == 12
  {
    var a, b := StripIsSlice(f);
    assert IsSpace(f[0]) && !IsSpace(f[1]) && !IsSpace(f[2]);
    assert !IsBlank(f);
    assert Strip(f)[0] == f[a];
    assert a == 1;
    assert b == 3;
    assert f[1..3] == "12";
    assert IsDigit('1') && IsDigit('2');
    assert "12"[..1] == "1";
    assert DecimalValue("1") == 1;
  }

  lemma WordField(f: string)
    requires f == "x"
    ensures !IsDigits(Strip(f))
  {
    StripTrimmed(f);
  }

  lemma EmptyField(f: string)
    requires f == ""
    ensures !IsDigits(Strip(f))
  {
  }

  lemma DigitField(f: string)
    requires f == "7"
    ensures Strip(f) == "7" && IsDigits(Strip(f)) && DecimalValue(Strip(f)) == 7
  {
    StripTrimmed(f);
  }
}

=== FILE: channelnames.dfy ===
/**
  The name of the private channel the "create chat" button opens
  (bot.py:91-92): `deepseek-<cleaned display name>-<user id mod 10000>`.
  Cleaning turns spaces into hyphens, keeps only word characters and
  hyphens, and lower-cases; an empty result becomes "user". The regular
  expression class `\w` is a parameter `isWord`, so the model holds for any
  reading of it.
*/
module ChannelNames {
  import opened Text
  import opened Options
  import Relay

  /** `str.lower()` on ASCII letters; other characters are kept as they are. */
  function LowerChar(c: char): (l: char)
    ensures !('A' <= l <= 'Z')
    ensures 'A' <= c <= 'Z' ==> l as int == c as int + 32
    ensures !('A' <= c <= 'Z') ==> l == c
  {
    if 'A' <= c <= 'Z' then (c as int + 32) as char else c
  }

  /** The character `c` becomes after `replace(' ', '-')`. */
  function Dashed(c: char): char {
    if c == ' ' then '-' else c
  }

  /** Does cleaning keep `c`: is it a hyphen or a word character? */
  predicate Kept(c: char, isWord: char -> bool) {
    c == '-' || isWord(c)
  }

  /**
    The cleaned name, character by character: a space becomes a hyphen,
    anything but a word character or a hyphen is removed, and ASCII letters
    are lower-cased.
  */
  function Clean(name: string, isWord: char -> bool): (r: string)
    ensures |r| <= |name|
    ensures forall i :: 0 <= i < |r| ==> r[i] != ' ' && !('A' <= r[i] <= 'Z')
    decreases |name|
  {
    if name == [] then ""
    else
      var c := Dashed(name[0]);
      var rest := Clean(name[1..], isWord);
      (if Kept(c, isWord) then [LowerChar(c)] else "") + rest
  }

  /** The character cleaning leaves in place of a kept `c`. */
  function CleanChar(c: char): char {
    LowerChar(Dashed(c))
  }

  /** Cleaning's filter as a test on the original character. */
  function KeptBy(isWord: char -> bool): char -> bool {
    c => Kept(Dashed(c), isWord)
  }

  /** Cleaning is the filtered map that dashes and lower-cases the kept characters. */
  lemma {:induction false} CleanIsFilterMap(name: string, isWord: char -> bool)
    ensures Clean(name, isWord) == FilterMap(name, KeptBy(isWord), CleanChar)
    decreases |name|
  {
    if name != [] {
      CleanIsFilterMap(name[1..], isWord);
    }
  }

  /**
    The cleaned name is the kept characters of the name, dashed and
    lower-cased, in their order: there is an increasing list of exactly the
    kept positions whose `j`-th entry is where the `j`-th character comes from.
  */
  lemma CleanSelects(name: string, isWord: char -> bool) returns (idx: seq<nat>)
    ensures Selection(name, KeptBy(isWord), idx)
    ensures |idx| == |Clean(name, isWord)|
    ensures forall j :: 0 <= j < |idx| ==>
      idx[j] < |name| && Clean(name, isWord)[j] == LowerChar(Dashed(name[idx[j]]))
  {
    CleanIsFilterMap(name, isWord);
    idx := FilterMapSelects(name, KeptBy(isWord), CleanChar);
  }

  /** When cleaning keeps every character, each is only dashed and lower-cased, in place. */
  lemma CleanAllKept(name: string, isWord: char -> bool)
    requires forall j :: 0 <= j < |name| ==> Kept(Dashed(name[j]), isWord)
    ensures |Clean(name, isWord)| == |name|
    ensures forall i :: 0 <= i < |name| ==> Clean(name, isWord)[i] == LowerChar(Dashed(name[i]))
  {
    CleanIsFilterMap(name, isWord);
    FilterMapAllKept(name, KeptBy(isWord), CleanChar);
  }

  /** The cleaned name, or "user" when nothing is left. */
  function UserPart(name: string, isWord: char -> bool): (r: string)
    ensures r != []
    ensures Clean(name, isWord) != [] ==> r == Clean(name, isWord)
    ensures Clean(name, isWord) == [] ==> r == "user"
  {
    var clean := Clean(name, isWord);
    if clean == [] then "user" else clean
  }

  function Pow10(k: nat): (p: nat)
    ensures p >= 1
  {
    if k == 0 then 1 else 10 * Pow10(k - 1)
  }

  /** `str(n)` of a number below 10^k has at most k digits. */
  lemma {:induction false} ShowNatDigits(n: nat, k: nat)
    requires 1 <= k && n < Pow10(k)
    ensures |ShowNat(n)| <= k
    decreases n
  {
    if n >= 10 {
      assert k >= 2;
      assert n / 10 < Pow10(k - 1);
      ShowNatDigits(n / 10, k - 1);
    }
  }

  /**
    bot.py:92: the channel name. It starts with the private-channel prefix,
    so the message handler answers in it, and holds no space and no
    upper-case ASCII letter.
  */
  function ChannelName(displayName: string, userId: nat, isWord: char -> bool): (r: string)
    ensures StartsWith(r, Relay.PrivatePrefix)
    ensures forall i :: 0 <= i < |r| ==> r[i] != ' ' && !('A' <= r[i] <= 'Z')
  {
    var user := UserPart(displayName, isWord);
    var suffix := ShowNat(userId % 10000);
    var r := Relay.PrivatePrefix + user + "-" + suffix;
    assert forall i :: 0 <= i < |suffix| ==> IsDigit(suffix[i]);
    r
  }

  /**
    The name ends with a hyphen and then at most four digits that read back
    as the last four decimal digits of the user id, and what lies between
    the prefix and that hyphen is the cleaned display name, or "user".
  */
  lemma ChannelNameParts(displayName: string, userId: nat, isWord: char -> bool) returns (k: nat)
    ensures var r := ChannelName(displayName, userId, isWord);
      && |Relay.PrivatePrefix| < k < |r| && |r| - k <= 4 && r[k - 1] == '-'
      && r[|Relay.PrivatePrefix|..k - 1] == UserPart(displayName, isWord)
      && IsDigits(r[k..]) && DecimalValue(r[k..]) == userId % 10000
  {
    var r := ChannelName(displayName, userId, isWord);
    var user := UserPart(displayName, isWord);
    var suffix := ShowNat(userId % 10000);
    assert Pow10(4) == 10000;
    ShowNatDigits(userId % 10000, 4);
    DecimalValueShowNat(userId % 10000);
    k := |Relay.PrivatePrefix| + |user| + 1;
    assert r == Relay.PrivatePrefix + user + "-" + suffix;
    assert r[k..] == suffix;
    assert r[|Relay.PrivatePrefix|..k - 1] == user;
  }

  /**
    Cleaning a cleaned name changes nothing, provided lower-casing keeps word
    characters word characters (as it does for `\w`).
  */
  lemma {:induction false} CleanIdempotent(name: string, isWord: char -> bool)
    requires forall c :: isWord(c) ==> isWord(LowerChar(c))
    ensures Clean(Clean(name, isWord), isWord) == Clean(name, isWord)
    decreases |name|
  {
    if name != [] {
      var c := Dashed(name[0]);
      var rest := Clean(name[1..], isWord);
      CleanIdempotent(name[1..], isWord);
      if Kept(c, isWord) {
        var l := LowerChar(c);
        assert Clean(name, isWord) == [l] + rest;
        assert ([l] + rest)[0] == l;
        assert ([l] + rest)[1..] == rest;
        assert Dashed(l) == l && Kept(l, isWord) && LowerChar(l) == l;
        assert Clean([l] + rest, isWord) == [l] + Clean(rest, isWord);
      } else {
        assert Clean(name, isWord) == rest;
      }
    }
  }

  /** A message in a channel the button created reaches the model, unless it is a command or empty. */
  lemma CreatedChannelIsAnswered(displayName: string, userId: nat, isWord: char -> bool,
                                 channel: nat, content: string)
    requires !IsBlank(content) && !StartsWith(Strip(content), "/")
    ensures Relay.PromptOf(Relay.Incoming(channel, ChannelName(displayName, userId, isWord), true, false, content))
         == Some(Strip(content))
  {
  }
}

=== FILE: completion.dfy ===
/**
  How the bot reads one reply of the DeepSeek chat-completions API
  (`get_deepseek_response`, bot.py:41-72). The HTTP exchange and JSON
  decoding are not modelled: the reply arrives already classified as a
  transport failure, an undecodable body, or a decoded body with its status.
  The result is the pair the Python function returns: the text to display
  (None on failure) and a second text that is the final answer to keep in
  the history on success and the error report on failure.
*/
module Completion {
  import opened Options
  import opened Text

  /** The one model whose `reasoning_content` is read (bot.py:56). */
  const Reasoner: string := "deepseek-reasoner"

  /** `choices[0].message`: its final answer and its reasoning trace, each possibly absent. */
  datatype Message = Message(content: Option<string>, reasoning: Option<string>)

  /** The decoded JSON body, reduced to what the bot reads of it. */
  datatype Body =
    | Undecodable
      /** `choices` (empty when missing or falsy), `error.message`, and `str()` of the whole body. */
    | Decoded(choices: seq<Message>, errorMessage: Option<string>, rendered: string)

  /** What came back from the HTTP call. */
  datatype Reply =
    | ConnectFailed
    | TimedOut
      /** Any other exception, with its `str()`. */
    | Crashed(detail: string)
    | Answered(status: int, body: Body)

  /** `(display, second)`: on success the text to show and the final answer to keep; on failure None and the report. */
  datatype Outcome = Outcome(display: Option<string>, second: Option<string>)

  function Failed(report: string): Outcome {
    Outcome(None, Some(report))
  }

  // The texts the bot writes, as they appear in bot.py.

  const ReasoningHeader: string := "\U{1F914} **思考过程:**\n```\n"
  const ReasoningFooter: string := "\n```\n\n"
  const AnswerLabel: string := "\U{1F4AC} **最终回答:**\n"
  const IncompleteReport: string := "API 返回数据不完整。"
  const ConnectReport: string := "无法连接 API"
  const TimeoutReport: string := "API 连接超时"
  const BadRequestHint: string := "\n(提示: 400 通常因格式错误)"

  function CrashReport(detail: string): string {
    "未知 API 错误: " + detail
  }

  function UndecodableReport(status: int): string {
    "无法解析响应(状态" + ShowInt(status) + ")"
  }

  function UnexpectedReport(rendered: string): string {
    "意外结构：" + rendered
  }

  function UnknownError(status: int): string {
    "未知错误(状态" + ShowInt(status) + ")"
  }

  /** The start of every report for a non-200 status. */
  function ApiErrorPrefix(status: int): string {
    "API 调用出错 (状态" + ShowInt(status) + "): "
  }

  /**
    The report for a non-200 status (bot.py:66-69): the API's own
    `error.message`, or a generic text naming the status when there is none,
    with a hint about malformed requests added for status 400 only.
  */
  function ApiErrorReport(status: int, errorMessage: Option<string>): (r: string)
    ensures StartsWith(r, ApiErrorPrefix(status))
    ensures errorMessage.Some? ==> StartsWith(r[|ApiErrorPrefix(status)|..], errorMessage.value)
    ensures errorMessage.None? ==> StartsWith(r[|ApiErrorPrefix(status)|..], UnknownError(status))
    ensures status == 400 ==> |BadRequestHint| <= |r| && r[|r| - |BadRequestHint|..] == BadRequestHint
    ensures status != 400 ==> r == ApiErrorPrefix(status) + errorMessage.GetOr(UnknownError(status))
  {
    var prefix := ApiErrorPrefix(status);
    var detail := errorMessage.GetOr(UnknownError(status));
    var hint := if status == 400 then BadRequestHint else "";
    AfterPrefix(prefix, detail + hint);
    AfterPrefix(prefix + detail, hint);
    Associative(prefix, detail, hint);
    NothingAppended(detail, hint);
    prefix + detail + hint
  }

  /** An empty hint adds nothing; a lemma of its own so the report's proof does not expand the concatenation. */
  lemma NothingAppended(a: string, b: string)
    ensures b == "" ==> a + b == a
  {
  }

  /** What follows a prefix is the rest. */
  lemma AfterPrefix(a: string, b: string)
    ensures (a + b)[|a|..] == b
    ensures StartsWith(a + b, a)
  {
    assert (a + b)[..|a|] == a;
  }

  /** The reasoning trace the bot reads: only the reasoner model's (bot.py:55-56). */
  function ShownReasoning(model: string, m: Message): (r: Option<string>)
    ensures model != Reasoner ==> r.None?
    ensures model == Reasoner ==> r == m.reasoning
  {
    if model == Reasoner then m.reasoning else None
  }

  /**
    The combined text before its final strip (bot.py:57-60): the labelled,
    fenced reasoning followed by the labelled answer when both are present,
    the stripped answer alone, or the stripped reasoning alone; empty when
    there is nothing to show.
  */
  function FullText(reasoning: Option<string>, final: Option<string>): (full: string)
    ensures full == [] <==>
      !((Truthy(reasoning) && (Truthy(final) || !IsBlank(reasoning.value))) || (Truthy(final) && !IsBlank(final.value)))
    ensures Truthy(reasoning) && Truthy(final) ==> StartsWith(full, ReasoningHeader + Strip(reasoning.value) + ReasoningFooter + AnswerLabel)
    ensures Truthy(reasoning) && Truthy(final) && !IsBlank(final.value) ==> Strip(full) == full
    ensures !Truthy(reasoning) && Truthy(final) ==> full == Strip(final.value)
    ensures Truthy(reasoning) && !Truthy(final) ==> full == Strip(reasoning.value)
  {
    var withReasoning := if Truthy(reasoning) then ReasoningHeader + Strip(reasoning.value) + ReasoningFooter else "";
    if Truthy(final) then
      var answer := Strip(final.value);
      var full := withReasoning + (if Truthy(reasoning) then AnswerLabel else "") + answer;
      if Truthy(reasoning) then
        var head := ReasoningHeader + Strip(reasoning.value) + ReasoningFooter + AnswerLabel;
        assert full == head + answer;
        assert head[0] == ReasoningHeader[0];
        TrimmedJoin(head, answer);
        full
      else full
    else if Truthy(reasoning) then Strip(reasoning.value)
    else withReasoning
  }

  /** A text that starts with a non-space and ends with a trimmed non-empty text is its own strip. */
  lemma TrimmedJoin(head: string, tail: string)
    requires head != [] && !IsSpace(head[0])
    requires tail != [] ==> !IsSpace(tail[|tail| - 1])
    ensures tail != [] ==> Strip(head + tail) == head + tail
  {
    if tail != [] {
      assert (head + tail)[|head + tail| - 1] == tail[|tail| - 1];
      StripTrimmed(head + tail);
    }
  }

  /** The outcome of a 200 reply with a first choice (bot.py:55-63). */
  function Answer(model: string, m: Message): (o: Outcome)
    ensures var r := ShownReasoning(model, m);
      o.display.Some? <==> (Truthy(r) && (Truthy(m.content) || !IsBlank(r.value))) || (Truthy(m.content) && !IsBlank(m.content.value))
    ensures o.display.Some? ==> o.second == (if Truthy(m.content) then Some(Strip(m.content.value)) else None)
    ensures o.display.None? ==> o.second == Some(IncompleteReport)
    ensures o.display.Some? ==> o.display.value != [] && Strip(o.display.value) == o.display.value
    ensures var r := ShownReasoning(model, m);
      Truthy(r) && Truthy(m.content) && !IsBlank(m.content.value) ==>
        o.display == Some(ReasoningHeader + Strip(r.value) + ReasoningFooter + AnswerLabel + Strip(m.content.value))
    ensures !Truthy(ShownReasoning(model, m)) && Truthy(m.content) && !IsBlank(m.content.value) ==>
        o.display == Some(Strip(m.content.value))
    ensures var r := ShownReasoning(model, m);
      Truthy(r) && !Truthy(m.content) && !IsBlank(r.value) ==> o.display == Some(Strip(r.value))
  {
    var full := FullText(ShownReasoning(model, m), m.content);
    if full == [] then Failed(IncompleteReport)
    else
      StripIdempotent(full);
      StripIdempotent(m.content.GetOr(""));
      StripIdempotent(ShownReasoning(model, m).GetOr(""));
      Outcome(Some(Strip(full)), if Truthy(m.content) then Some(Strip(m.content.value)) else None)
  }

  /**
    `get_deepseek_response` (bot.py:41-72) on an already received reply:
    success exactly for a decoded status-200 body with a first choice that
    has something to show; every other path gives no display text and a
    non-empty report.
  */
  function Shape(model: string, reply: Reply): (o: Outcome)
    ensures o.display.Some? <==>
      && reply.Answered? && reply.status == 200 && reply.body.Decoded? && |reply.body.choices| > 0
      && Answer(model, reply.body.choices[0]).display.Some?
    ensures o.display.Some? ==> o == Answer(model, reply.body.choices[0])
    ensures o.display.None? ==> Truthy(o.second)
    ensures reply.ConnectFailed? ==> o == Failed(ConnectReport)
    ensures reply.TimedOut? ==> o == Failed(TimeoutReport)
    ensures reply.Crashed? ==> o == Failed(CrashReport(reply.detail))
    ensures reply.Answered? && reply.body.Undecodable? ==> o == Failed(UndecodableReport(reply.status))
    ensures reply.Answered? && reply.body.Decoded? && reply.status != 200 ==>
      o == Failed(ApiErrorReport(reply.status, reply.body.errorMessage))
    ensures reply.Answered? && reply.body.Decoded? && reply.status == 200 && reply.body.choices == [] ==>
      o == Failed(UnexpectedReport(reply.body.rendered))
  {
    match reply
    case ConnectFailed => Failed(ConnectReport)
    case TimedOut => Failed(TimeoutReport)
    case Crashed(detail) => Failed(CrashReport(detail))
    case Answered(status, Undecodable) => Failed(UndecodableReport(status))
    case Answered(status, Decoded(choices, errorMessage, rendered)) =>
      if status == 200 then
        if |choices| > 0 then Answer(model, choices[0]) else Failed(UnexpectedReport(rendered))
      else Failed(ApiErrorReport(status, errorMessage))
  }

  /** Outside the reasoner model, the reasoning field of a reply changes nothing. */
  lemma ReasoningOnlyForReasoner(model: string, m: Message, reasoning: Option<string>)
    requires model != Reasoner
    ensures Answer(model, m) == Answer(model, m.(reasoning := reasoning))
  {
  }

  /** A reasoner reply with reasoning "step1..." and answer "42" shows both, labelled, and keeps only "42". */
  lemma ReasonerScenario(rendered: string)
    ensures Shape(Reasoner, Answered(200, Decoded([Message(Some("42"), Some("step1..."))], None, rendered)))
         == Outcome(Some(ReasoningHeader + "step1..." + ReasoningFooter + AnswerLabel + "42"), Some("42"))
  {
    StripTrimmed("42");
    StripTrimmed("step1...");
  }

  /** A 400 with `error.message` "invalid request" reports that message and the hint. */
  lemma BadRequestScenario(model: string, rendered: string)
    ensures Shape(model, Answered(400, Decoded([], Some("invalid request"), rendered)))
         == Failed("API 调用出错 (状态400): invalid request" + BadRequestHint)
  {
    ShowFourHundred(400);
    var prefix := ApiErrorPrefix(400);
    assert prefix == "API 调用出错 (状态400): ";
    BadRequestReport(400, "invalid request");
    AppendedLiteral(prefix, "API 调用出错 (状态400): ", "invalid request");
    assert "API 调用出错 (状态400): " + "invalid request" == "API 调用出错 (状态400): invalid request";
  }

  /** The report for a 400, with the status a parameter so the solver does not unfold the report on literals. */
  lemma BadRequestReport(status: int, message: string)
    requires status == 400
    ensures ApiErrorReport(status, Some(message)) == ApiErrorPrefix(status) + message + BadRequestHint
  {
  }

  /** `ShowInt(400)`; the number is a parameter so `ShowInt` is unfolded here and nowhere else. */
  lemma ShowFourHundred(n: int)
    requires n == 400
    ensures ShowInt(n) == "400"
  {
    assert ShowNat(4) == "4";
    assert ShowNat(40) == "40";
  }

  /** Replaces a computed prefix by its literal under a concatenation, without comparing the strings character by character. */
  lemma AppendedLiteral(a: string, b: string, c: string)
    requires a == b
    ensures a + c == b + c
  {
  }
}

=== FILE: fences.dfy ===
/**
  The splitter's fence guard (bot.py:290-295) on a reply made only of code
  fences: `k` lines of three backticks joined by newlines, with no newline
  after the last, which is the shape a stripped reply has. Every cut falls
  on a newline between two fences, so no fence marker is torn apart, and a
  full window is pulled back from 497 fences to 496. Once the rest fits in
  one window, the cut still falls on its last newline: an odd rest keeps
  every fence but the last together, while an even rest of four or more
  leaves its last two fences for two pieces of one fence each. So the guard
  keeps fences paired only up to the last pair, which is torn whenever `k`
  is even.
*/
module FencePairing {
  import opened Text
  import opened Splitter

  /** Character `i` of a run of fence lines: a newline after every three backticks. */
  function FenceChar(i: int): char {
    if i % 4 == 3 then '\n' else '`'
  }

  /** `n` fences joined by newlines, with no newline after the last. */
  function FenceBlock(n: nat): (s: string)
    ensures n > 0 ==> |s| == 4 * n - 1
    ensures n == 0 ==> s == ""
    ensures forall i :: 0 <= i < |s| ==> s[i] == FenceChar(i)
  {
    if n == 0 then "" else seq(4 * n - 1, i => FenceChar(i))
  }

  /** Shifting by whole lines does not change a fence line's characters. */
  lemma FenceCharShift(a: int, i: int)
    ensures FenceChar(4 * a + i) == FenceChar(i)
  {
    assert (4 * a + i) % 4 == i % 4;
  }

  /** A block of `n` fences counts `n` fences. */
  lemma {:induction false} FenceBlockCount(n: nat)
    ensures CountFences(FenceBlock(n)) == n
    decreases n
  {
    if n > 0 {
      var s := FenceBlock(n);
      assert s[..3] == Fence;
      if n > 1 {
        var t := s[3..];
        assert t[0] == '\n';
        assert t[..3] != Fence;
        BlockTail(n);
        FenceBlockCount(n - 1);
      }
    }
  }

  /** Past its first fence and newline, a block is the block of one fence fewer. */
  lemma BlockTail(n: nat)
    requires n > 1
    ensures FenceBlock(n)[3..][1..] == FenceBlock(n - 1)
  {
    var t := FenceBlock(n)[3..][1..];
    forall i | 0 <= i < |t|
      ensures t[i] == FenceBlock(n - 1)[i]
    {
      FenceCharShift(1, i);
    }
  }

  /** The `n` fences from line `a` on (offsets `lo` to `hi`) are a block of `n` fences. */
  lemma LinesAreBlock(k: nat, a: nat, n: nat, lo: nat, hi: nat)
    requires 0 < n && a + n <= k && lo == 4 * a && hi == 4 * (a + n) - 1
    ensures FenceBlock(k)[lo..hi] == FenceBlock(n)
  {
    var t := FenceBlock(k)[lo..hi];
    forall i | 0 <= i < |t|
      ensures t[i] == FenceBlock(n)[i]
    {
      FenceCharShift(a, i);
    }
  }

  /** The `n` fences from line `a` on (offsets `lo` to `hi`) count `n` fences. */
  lemma LinesCount(k: nat, a: nat, n: nat, lo: nat, hi: nat)
    requires 0 < n && a + n <= k && lo == 4 * a && hi == 4 * (a + n) - 1
    ensures CountFences(FenceBlock(k)[lo..hi]) == n
  {
    LinesAreBlock(k, a, n, lo, hi);
    FenceBlockCount(n);
  }

  /** Character `e` of line `q`: three backticks, then the newline. */
  lemma LineChar(q: int, e: int)
    requires 0 <= e <= 3
    ensures FenceChar(4 * q + e) == (if e == 3 then '\n' else '`')
  {
    FenceCharShift(q, e);
  }

  /** The newline `j` ending line `q`, with no newline after it before `hi`, is the last newline in `[lo, hi)`. */
  lemma LastNewline(k: nat, q: nat, j: nat, lo: nat, hi: nat)
    requires j == 4 * q + 3 && lo <= j < hi <= j + 4 && hi <= 4 * k - 1
    ensures HasCharIn(FenceBlock(k), '\n', lo, hi)
    ensures IsLastIn(FenceBlock(k), '\n', j, lo, hi)
  {
    var s := FenceBlock(k);
    LineChar(q, 3);
    assert s[j] == '\n';
    forall i | j < i < hi
      ensures s[i] != '\n'
    {
      LineChar(q + 1, i - j - 1);
    }
  }

  /** At most three characters from the start `lo` of line `q` hold no newline and no space. */
  lemma NoBreakAfter(k: nat, q: nat, lo: nat, hi: nat)
    requires lo == 4 * q && lo <= hi <= lo + 3 && hi <= 4 * k - 1
    ensures !HasCharIn(FenceBlock(k), '\n', lo, hi)
    ensures !HasCharIn(FenceBlock(k), ' ', lo, hi)
  {
    var s := FenceBlock(k);
    forall i | lo <= i < hi
      ensures s[i] == '`'
    {
      LineChar(q, i - lo);
    }
  }

  /**
    How many fences the piece cut from line `m` holds, for `r = k - m`
    fences left: 496 while more than one window remains (the preferred cut
    encloses 497, and the guard pulls it back one line); one when one or two
    are left; otherwise the rest fits in the window and the cut falls on its
    last newline, keeping all but the last fence when that makes an even
    count, and pulled back one more line when it does not.
  */
  function Advance(k: nat, m: nat): (n: nat)
    requires m < k
    ensures 1 <= n <= k - m
    ensures (n % 2 == 0 && n < k - m) || (k - m <= 2 && n == 1)
  {
    var r := k - m;
    if r > 497 then 496
    else if r <= 2 then 1
    else if r % 2 == 1 then r - 1
    else r - 2
  }

  /** With more than a window ahead, the preferred cut is the newline ending line `m + 496`. */
  lemma WindowPreferred(k: nat, m: nat)
    requires m + 497 < k
    ensures Preferred(FenceBlock(k), 4 * m) == 4 * m + 1987
  {
    var s := FenceBlock(k);
    var cur := 4 * m;
    assert CutOff(s, cur) == cur + 1990;
    LastNewline(k, m + 496, cur + 1987, cur + 1, cur + 1990);
    LastIsUnique(s, '\n', Preferred(s, cur), cur + 1987, cur + 1, cur + 1990);
  }

  /** The 497 fences of a full window are odd, so the guard pulls the cut back one line. */
  lemma WindowCut(k: nat, m: nat)
    requires m + 497 < k
    ensures Cut(FenceBlock(k), 4 * m) == 4 * (m + 496) - 1
  {
    var s := FenceBlock(k);
    var cur := 4 * m;
    WindowPreferred(k, m);
    LinesCount(k, m, 497, cur, cur + 1987);
    assert OddFences(s, cur, cur + 1987);
    LastNewline(k, m + 495, cur + 1983, cur + 1, cur + 1986);
    LastIsUnique(s, '\n', Cut(s, cur), cur + 1983, cur + 1, cur + 1986);
  }

  /** When the rest, two fences or more, fits in the window, the preferred cut is its last newline. */
  lemma TailPreferred(k: nat, m: nat)
    requires m + 2 <= k <= m + 497
    ensures Preferred(FenceBlock(k), 4 * m) == 4 * k - 5
  {
    var s := FenceBlock(k);
    var cur := 4 * m;
    assert CutOff(s, cur) == 4 * k - 1;
    LastNewline(k, k - 2, 4 * k - 5, cur + 1, 4 * k - 1);
    LastIsUnique(s, '\n', Preferred(s, cur), 4 * k - 5, cur + 1, 4 * k - 1);
  }

  /** Up to that last newline lie all remaining fences but the last. */
  lemma TailCount(k: nat, m: nat, lo: nat, hi: nat)
    requires m + 2 <= k && lo == 4 * m && hi == 4 * k - 5
    ensures CountFences(FenceBlock(k)[lo..hi]) == k - m - 1
  {
    LinesCount(k, m, k - m - 1, lo, hi);
  }

  /** One fewer than a number has the other parity. */
  lemma OtherParity(r: nat)
    requires r > 0
    ensures (r - 1) % 2 != r % 2
  {
  }

  /** A single remaining fence goes out alone: there is nothing to cut at. */
  lemma LastLineCut(k: nat, m: nat)
    requires m + 1 == k
    ensures Cut(FenceBlock(k), 4 * m) == 4 * k - 1
  {
    var s := FenceBlock(k);
    var cur := 4 * m;
    assert CutOff(s, cur) == 4 * k - 1;
    NoBreakAfter(k, m, cur, 4 * k - 1);
    assert !HasCharIn(s, '\n', cur + 1, 4 * k - 1) && !HasCharIn(s, ' ', cur + 1, 4 * k - 1);
    assert !HasCharIn(s, '\n', cur + 1, 4 * k - 2);
  }

  /** Two remaining fences are cut apart: the first is odd and there is no earlier newline. */
  lemma PairTailCut(k: nat, m: nat)
    requires m + 2 == k
    ensures Cut(FenceBlock(k), 4 * m) == 4 * k - 5
  {
    var s := FenceBlock(k);
    var cur := 4 * m;
    TailPreferred(k, m);
    NoBreakAfter(k, m, cur, cur + 2);
    assert !HasCharIn(s, '\n', cur + 1, 4 * k - 6);
  }

  /** An odd rest of three or more goes out as all but its last fence, an even count. */
  lemma OddTailCut(k: nat, m: nat)
    requires m + 2 < k <= m + 497 && (k - m) % 2 == 1
    ensures Cut(FenceBlock(k), 4 * m) == 4 * k - 5
  {
    var s := FenceBlock(k);
    var cur := 4 * m;
    var p := Preferred(s, cur);
    TailPreferred(k, m);
    TailCount(k, m, cur, p);
    OtherParity(k - m);
    assert !OddFences(s, cur, p);
  }

  /** An even rest of four or more is pulled back one more line, leaving two fences. */
  lemma EvenTailCut(k: nat, m: nat)
    requires m + 2 < k <= m + 497 && (k - m) % 2 == 0
    ensures Cut(FenceBlock(k), 4 * m) == 4 * k - 9
  {
    var s := FenceBlock(k);
    var cur := 4 * m;
    var p := Preferred(s, cur);
    var hi := p - 1;
    TailPreferred(k, m);
    assert OddFences(s, cur, p) by {
      TailCount(k, m, cur, p);
      OtherParity(k - m);
    }
    LastNewline(k, k - 3, 4 * k - 9, cur + 1, hi);
    LastIsUnique(s, '\n', Cut(s, cur), 4 * k - 9, cur + 1, hi);
  }

  /** From the start of line `m`, the cut falls right after fence `m + Advance(k, m) - 1`. */
  lemma CutOfFenceBlock(k: nat, m: nat, cut: nat)
    requires m < k && cut == 4 * (m + Advance(k, m)) - 1
    ensures Cut(FenceBlock(k), 4 * m) == cut
  {
    var r := k - m;
    if r > 497 {
      WindowCut(k, m);
    } else if r == 1 {
      LastLineCut(k, m);
    } else if r == 2 {
      PairTailCut(k, m);
    } else if r % 2 == 1 {
      OddTailCut(k, m);
    } else {
      EvenTailCut(k, m);
    }
  }

  /** Where line `j` starts, or the end of the block once every line is used. */
  function LineStart(k: nat, j: nat): nat
    requires j <= k
  {
    if j < k then 4 * j else if k == 0 then 0 else 4 * k - 1
  }

  /** The whitespace the splitter skips before line `j`: one newline, or nothing at the end. */
  function Gap(k: nat, j: nat): string {
    if j < k then "\n" else ""
  }

  /** After a cut on the newline ending line `b - 1`, the cursor moves to `at`, the start of line `b`. */
  lemma SkipAfterLine(k: nat, b: nat, cut: nat, at: nat)
    requires 0 < b < k && at == 4 * b && cut + 1 == at
    ensures SkipSpace(FenceBlock(k), cut) == at
    ensures FenceBlock(k)[cut..at] == "\n"
  {
    var s := FenceBlock(k);
    LineChar(b - 1, 3);
    LineChar(b, 0);
    assert s[cut] == '\n';
    assert IsSpace('\n');
    assert s[at] == '`';
    assert !IsSpace('`');
  }

  /** `Pieces` unfolded once at a known cut and gap. */
  lemma PiecesAt(s: string, cur: nat, k: nat, next: nat)
    requires cur < |s| && k == Cut(s, cur) && next == SkipSpace(s, k)
    ensures Pieces(s, cur) == [Piece(s[cur..k], s[k..next])] + Pieces(s, next)
  {
  }

  /** The pieces the splitter cuts from line `m` on, worked out line by line. */
  function FencePieces(k: nat, m: nat): seq<Piece>
    requires m <= k
    decreases k - m
  {
    if m == k then []
    else
      var n := Advance(k, m);
      [Piece(FenceBlock(n), Gap(k, m + n))] + FencePieces(k, m + n)
  }

  /** `FencePieces` unfolded once; the rest starts at line `next`. */
  lemma FencePiecesStep(k: nat, m: nat, next: nat)
    requires m < k && next == m + Advance(k, m)
    ensures FencePieces(k, m) == [Piece(FenceBlock(Advance(k, m)), Gap(k, next))] + FencePieces(k, next)
  {
  }

  /** Two lists with the same head and equal tails are equal. */
  lemma SameAfterHead<T>(xs: seq<T>, ys: seq<T>, head: T, xt: seq<T>, yt: seq<T>)
    requires xs == [head] + xt && ys == [head] + yt && xt == yt
    ensures xs == ys
  {
  }

  /** The splitter's step from line `m` (offset `from`); the next piece starts at `at`. */
  lemma StepPieces(k: nat, m: nat, from: nat, next: nat, cut: nat, at: nat)
    requires m < k && from == 4 * m && next == m + Advance(k, m)
    requires cut == 4 * next - 1 && at == LineStart(k, next)
    ensures Pieces(FenceBlock(k), from) == [Piece(FenceBlock(Advance(k, m)), Gap(k, next))] + Pieces(FenceBlock(k), at)
  {
    var s := FenceBlock(k);
    CutOfFenceBlock(k, m, cut);
    LinesAreBlock(k, m, Advance(k, m), from, cut);
    if next < k {
      SkipAfterLine(k, next, cut, at);
    } else {
      assert cut == |s| && at == |s|;
      assert s[cut..at] == "";
    }
    PiecesAt(s, from, cut, at);
  }

  /** The splitter cuts the block from line `m`, at offset `at`, exactly as `FencePieces` says. */
  lemma {:induction false} PiecesOfFenceBlock(k: nat, m: nat, at: nat)
    requires m <= k && at == LineStart(k, m)
    ensures Pieces(FenceBlock(k), at) == FencePieces(k, m)
    decreases k - m
  {
    if m < k {
      var next := m + Advance(k, m);
      var nextAt := LineStart(k, next);
      var head := Piece(FenceBlock(Advance(k, m)), Gap(k, next));
      StepPieces(k, m, at, next, 4 * next - 1, nextAt);
      PiecesOfFenceBlock(k, next, nextAt);
      FencePiecesStep(k, m, next);
      SameAfterHead(Pieces(FenceBlock(k), at), FencePieces(k, m), head,
                    Pieces(FenceBlock(k), nextAt), FencePieces(k, next));
    } else {
      assert at == |FenceBlock(k)|;
    }
  }

  /** Each piece is a block of whole fences. */
  predicate WholeFences(ps: seq<Piece>) {
    forall i :: 0 <= i < |ps| ==> ps[i].text == FenceBlock(CountFences(ps[i].text))
  }

  /** Every piece but the last is followed by one newline, and the last by nothing. */
  predicate NewlineGaps(ps: seq<Piece>) {
    && (forall i :: 0 <= i < |ps| - 1 ==> ps[i].gap == "\n")
    && (|ps| > 0 ==> ps[|ps| - 1].gap == "")
  }

  /** Every piece but the last `t` holds an even number of fences. */
  predicate EvenBefore(ps: seq<Piece>, t: nat) {
    forall i :: 0 <= i < |ps| - t ==> CountFences(ps[i].text) % 2 == 0
  }

  /** How many single fences end the pieces of `r` fences: one when `r` is odd, two when even. */
  function Singles(r: nat): nat {
    if r % 2 == 1 then 1 else 2
  }

  /**
    For `r` fences: there are pieces exactly when `r > 0`, only one when
    `r == 1`; the last piece is a single fence, and so is the one before it
    when `r` is even.
  */
  predicate SingleTail(ps: seq<Piece>, r: nat) {
    && (r > 0 <==> |ps| > 0)
    && (r == 1 ==> |ps| == 1)
    && (|ps| > 0 ==> ps[|ps| - 1].text == Fence)
    && (r > 0 && r % 2 == 0 ==> |ps| >= 2 && ps[|ps| - 2].text == Fence)
  }

  /** A whole-fence piece in front of whole-fence pieces. */
  lemma WholeCons(head: Piece, rest: seq<Piece>)
    requires head.text == FenceBlock(CountFences(head.text))
    requires WholeFences(rest)
    ensures WholeFences([head] + rest)
  {
    var ps := [head] + rest;
    forall i | 0 < i < |ps|
      ensures ps[i] == rest[i - 1]
    {
      ConsAt(head, rest, i);
    }
  }

  /** A newline gap in front of more pieces, or an empty gap in front of none. */
  lemma GapsCons(head: Piece, rest: seq<Piece>)
    requires head.gap == (if rest != [] then "\n" else "")
    requires NewlineGaps(rest)
    ensures NewlineGaps([head] + rest)
  {
    var ps := [head] + rest;
    forall i | 0 < i < |ps|
      ensures ps[i] == rest[i - 1]
    {
      ConsAt(head, rest, i);
    }
  }

  /** An even first piece keeps the shape of the pieces for the `left` fences after it. */
  lemma EvenHeadCons(head: Piece, rest: seq<Piece>, r: nat, left: nat)
    requires CountFences(head.text) % 2 == 0 && 0 < left < r && left % 2 == r % 2
    requires EvenBefore(rest, Singles(left)) && SingleTail(rest, left)
    ensures EvenBefore([head] + rest, Singles(r)) && SingleTail([head] + rest, r)
  {
    var ps := [head] + rest;
    forall i | 0 < i < |ps|
      ensures ps[i] == rest[i - 1]
    {
      ConsAt(head, rest, i);
    }
  }

  /** The last fence goes out as a piece of its own. */
  lemma OneFenceLeft(head: Piece)
    requires head.text == FenceBlock(1)
    ensures EvenBefore([head], Singles(1)) && SingleTail([head], 1)
  {
    SingleFence(head.text, 1);
  }

  /** Two fences left go out as two pieces of one fence each. */
  lemma PairLeft(head: Piece, rest: seq<Piece>)
    requires head.text == FenceBlock(1) && SingleTail(rest, 1)
    ensures EvenBefore([head] + rest, Singles(2)) && SingleTail([head] + rest, 2)
  {
    SingleFence(head.text, 1);
    assert ([head] + rest)[0] == head;
  }

  /** The block of one fence is the fence marker. */
  lemma SingleFence(t: string, n: nat)
    requires n == 1 && t == FenceBlock(n)
    ensures t == Fence
  {
  }

  /** Taking an even number away keeps the parity. */
  lemma EvenDrop(r: nat, n: nat)
    requires n <= r && n % 2 == 0
    ensures (r - n) % 2 == r % 2
  {
  }

  /** A first piece of `n` fences in front of the pieces for the other `left` fences. */
  lemma PairedCons(ps: seq<Piece>, head: Piece, n: nat, rest: seq<Piece>, r: nat, left: nat)
    requires ps == [head] + rest
    requires 1 <= n <= r && left == r - n && head.text == FenceBlock(n)
    requires head.gap == (if left > 0 then "\n" else "")
    requires (n % 2 == 0 && n < r) || (r <= 2 && n == 1)
    requires WholeFences(rest) && NewlineGaps(rest)
    requires EvenBefore(rest, Singles(left)) && SingleTail(rest, left)
    ensures WholeFences(ps) && NewlineGaps(ps)
    ensures EvenBefore(ps, Singles(r)) && SingleTail(ps, r)
  {
    FenceBlockCount(n);
    WholeCons(head, rest);
    GapsCons(head, rest);
    if n % 2 == 0 && n < r {
      EvenDrop(r, n);
      EvenHeadCons(head, rest, r, left);
    } else if r == 1 {
      OneFenceLeft(head);
    } else {
      PairLeft(head, rest);
    }
  }

  /** The pieces from line `m` keep fences whole, for the `k - m` fences left. */
  lemma {:induction false} FencePiecesPaired(k: nat, m: nat)
    requires m <= k
    ensures WholeFences(FencePieces(k, m)) && NewlineGaps(FencePieces(k, m))
    ensures EvenBefore(FencePieces(k, m), Singles(k - m))
    ensures SingleTail(FencePieces(k, m), k - m)
    decreases k - m
  {
    if m < k {
      var n := Advance(k, m);
      var next := m + n;
      var left := k - next;
      FencePiecesPaired(k, next);
      FencePiecesStep(k, m, next);
      PairedCons(FencePieces(k, m), Piece(FenceBlock(n), Gap(k, next)), n, FencePieces(k, next), k - m, left);
    }
  }

  /**
    A reply of `k` fences joined by newlines is cut without tearing a fence
    marker: each piece is whole fences, followed by one newline, and the
    last by nothing; the last piece is a single fence. When `k` is odd every
    other piece holds an even number of fences. When `k` is even the piece
    before the last is a single fence too, so the last pair of fences is
    split over two pieces, and every piece before those two is even.
  */
  lemma FencesStayPaired(k: nat)
    ensures var ps := Pieces(FenceBlock(k), 0);
      && (forall i :: 0 <= i < |ps| ==> ps[i].text == FenceBlock(CountFences(ps[i].text)))
      && (forall i :: 0 <= i < |ps| - 1 ==> ps[i].gap == "\n")
      && (k > 0 <==> |ps| > 0)
      && (|ps| > 0 ==> ps[|ps| - 1].text == Fence && ps[|ps| - 1].gap == "")
      && (k % 2 == 1 ==> forall i :: 0 <= i < |ps| - 1 ==> CountFences(ps[i].text) % 2 == 0)
      && (k > 0 && k % 2 == 0 ==>
            && |ps| >= 2 && ps[|ps| - 2].text == Fence
            && forall i :: 0 <= i < |ps| - 2 ==> CountFences(ps[i].text) % 2 == 0)
  {
    PiecesOfFenceBlock(k, 0, 0);
    FencePiecesPaired(k, 0);
  }

  /** A list that is one piece followed by three is the four-piece list. */
  lemma ChainFour(ps: seq<Piece>, rest: seq<Piece>, a: Piece, b: Piece, c: Piece, d: Piece)
    requires ps == [a] + rest && rest == [b, c, d]
    ensures ps == [a, b, c, d]
  {
  }

  /** The last six fences of a 502-fence reply go out as 4, 1 and 1. */
  lemma TailOf502(k: nat)
    requires k == 502
    ensures FencePieces(k, 496) == [Piece(FenceBlock(4), "\n"), Piece(Fence, "\n"), Piece(Fence, "")]
  {
    assert Advance(k, 501) == 1;
    FencePiecesStep(k, 501, 502);
    var last := FencePieces(k, 501);
    assert last == [Piece(Fence, "")] by { SingleFence(FenceBlock(1), 1); }
    assert Advance(k, 500) == 1;
    FencePiecesStep(k, 500, 501);
    assert FencePieces(k, 500) == [Piece(Fence, "\n")] + last by { SingleFence(FenceBlock(1), 1); }
    assert Advance(k, 496) == 4;
    FencePiecesStep(k, 496, 500);
  }

  /**
    A reply of 502 fences joined by newlines (2007 characters, an even
    number of fences) goes out as 496 fences (`k - 6`), 4 fences, and then
    its last two fences one by one.
  */
  lemma EvenRunOf502(k: nat)
    requires k == 502
    ensures Pieces(FenceBlock(k), 0)
            == [Piece(FenceBlock(k - 6), "\n"), Piece(FenceBlock(4), "\n"), Piece(Fence, "\n"), Piece(Fence, "")]
  {
    PiecesOfFenceBlock(k, 0, 0);
    var n := Advance(k, 0);
    assert n == k - 6;
    FencePiecesStep(k, 0, n);
    TailOf502(k);
    ChainFour(Pieces(FenceBlock(k), 0), FencePieces(k, n),
              Piece(FenceBlock(k - 6), "\n"), Piece(FenceBlock(4), "\n"), Piece(Fence, "\n"), Piece(Fence, ""));
  }
}

=== FILE: history.dfy ===
/**
  The per-channel conversation history (bot.py:79, 171-174, 245-248,
  269-283): a map from channel id to a `deque(maxlen=MAX_HISTORY)` of
  role/content turns. Appending to a full deque evicts its oldest turn.
*/
module History {
  import opened Options
  import opened Text

  /** A Discord channel id (a non-negative snowflake). */
  type ChannelId = nat

  datatype Role = User | Assistant

  /** One turn: the `{"role", "content"}` dict the bot stores and sends. */
  datatype Turn = Turn(role: Role, content: string)

  type Log = seq<Turn>

  type Store = map<ChannelId, Log>

  /** Reference definition: the `cap` most recent entries of `xs`, oldest first. */
  function Latest<T>(xs: seq<T>, cap: nat): seq<T> {
    if |xs| <= cap then xs else xs[|xs| - cap..]
  }

  /**
    `deque.append(t)` on a deque of `maxlen=cap`: add at the right, and when
    the deque was already full drop entries from the left so that `cap`
    remain. The result keeps the most recent `cap` turns of `log + [t]`.
  */
  function Push(log: Log, t: Turn, cap: nat): (r: Log)
    ensures |r| == Min(|log| + 1, cap)
    ensures r == Latest(log + [t], cap)
    ensures cap > 0 ==> r[|r| - 1] == t
  {
    if |log| < cap then log + [t]
    else if cap == 0 then []
    else
      assert (log + [t])[|log| + 1 - cap..] == log[|log| - cap + 1..] + [t];
      log[|log| - cap + 1..] + [t]
  }

  /** Appending turns one at a time. */
  function PushAll(log: Log, ts: seq<Turn>, cap: nat): Log
    decreases |ts|
  {
    if ts == [] then log else PushAll(Push(log, ts[0], cap), ts[1..], cap)
  }

  /** Keeping the latest `cap` twice is keeping them once, even across an append. */
  lemma LatestAppend<T>(xs: seq<T>, t: T, cap: nat)
    ensures Latest(Latest(xs, cap) + [t], cap) == Latest(xs + [t], cap)
  {
    if |xs| > cap {
      var l := xs[|xs| - cap..];
      assert (l + [t])[1..] == (xs + [t])[|xs| + 1 - cap..];
    }
  }

  /**
    Starting from a deque that respects its bound, however many turns are
    appended, the deque holds the most recent `cap`
    turns of the whole history, oldest first: eviction is strictly FIFO.
  */
  lemma {:induction false} PushAllKeepsLatest(log: Log, ts: seq<Turn>, cap: nat)
    requires |log| <= cap
    ensures PushAll(log, ts, cap) == Latest(log + ts, cap)
    ensures |PushAll(log, ts, cap)| == Min(|log| + |ts|, cap)
    decreases |ts|
  {
    if ts == [] {
      assert log + ts == log;
    } else {
      var l1 := Push(log, ts[0], cap);
      PushAllKeepsLatest(l1, ts[1..], cap);
      LatestPrefix(log, ts, cap);
    }
  }

  /** Folding the first appended turn into a `Latest` window changes nothing further on. */
  lemma LatestPrefix(log: Log, ts: seq<Turn>, cap: nat)
    requires ts != []
    ensures Latest(Latest(log + [ts[0]], cap) + ts[1..], cap) == Latest(log + ts, cap)
  {
    var xs := log + [ts[0]];
    var all := xs + ts[1..];
    assert [ts[0]] + ts[1..] == ts;
    assert all == log + ts;
    var l := Latest(xs, cap);
    if |xs| <= cap {
      assert l + ts[1..] == all;
    } else {
      assert l + ts[1..] == all[|xs| - cap..];
      LatestOfSuffix(all, |xs| - cap, cap);
    }
    assert Latest(l + ts[1..], cap) == Latest(all, cap);
  }

  /** Dropping a prefix that leaves at least `cap` entries keeps the latest `cap`. */
  lemma LatestOfSuffix<T>(all: seq<T>, k: nat, cap: nat)
    requires k + cap <= |all|
    ensures Latest(all[k..], cap) == Latest(all, cap)
  {
    assert all[k..][|all| - k - cap..] == all[|all| - cap..];
  }

  /** Every log of the store fits its deque. */
  predicate Bounded(store: Store, cap: nat) {
    forall ch :: ch in store ==> |store[ch]| <= cap
  }

  /** The channel's log, empty when it has none. */
  function LogOf(store: Store, ch: ChannelId): Log {
    if ch in store then store[ch] else []
  }

  /** bot.py:269: the channel gets an empty deque unless it already has one. */
  function Open(store: Store, ch: ChannelId): (r: Store)
    ensures r.Keys == store.Keys + {ch}
    ensures r[ch] == LogOf(store, ch)
    ensures forall c :: c in store ==> r[c] == store[c]
  {
    if ch in store then store else store[ch := []]
  }

  /**
    bot.py:272-273: the request's messages are the stored turns, projected
    to role and content, followed by exactly one new user turn.
  */
  function Request(log: Log, prompt: string): (r: seq<Turn>)
    ensures |r| == |log| + 1
    ensures r[..|log|] == log
    ensures r[|log|] == Turn(User, prompt)
  {
    log + [Turn(User, prompt)]
  }

  /**
    bot.py:280-283: the update after a call. Nothing changes unless there is
    something to display; then the user turn is appended, and the assistant
    turn after it only when the history text is non-empty.
  */
  function Record(log: Log, cap: nat, prompt: string, display: Option<string>, second: Option<string>): (r: Log)
    ensures !Truthy(display) ==> r == log
    ensures Truthy(display) && Truthy(second) ==>
      r == Latest(log + [Turn(User, prompt), Turn(Assistant, second.value)], cap)
    ensures Truthy(display) && !Truthy(second) ==> r == Latest(log + [Turn(User, prompt)], cap)
    ensures Truthy(display) ==> |r| <= cap
  {
    if Truthy(display) then
      var withUser := Push(log, Turn(User, prompt), cap);
      if Truthy(second) then
        LatestAppend(log + [Turn(User, prompt)], Turn(Assistant, second.value), cap);
        assert log + [Turn(User, prompt)] + [Turn(Assistant, second.value)]
            == log + [Turn(User, prompt), Turn(Assistant, second.value)];
        Push(withUser, Turn(Assistant, second.value), cap)
      else withUser
    else log
  }

  /** What `/clear_history` does to the store, and whether it found a history to clear. */
  datatype Cleared = Cleared(store: Store, found: bool)

  /**
    bot.py:171-174: a channel's deque is emptied if it exists (the key stays);
    otherwise nothing changes and the caller reports that no history was found.
  */
  function Clear(store: Store, ch: ChannelId): (c: Cleared)
    ensures c.found <==> ch in store
    ensures c.found ==> c.store.Keys == store.Keys && c.store[ch] == []
    ensures !c.found ==> c.store == store
    ensures forall other :: other in store && other != ch ==> other in c.store && c.store[other] == store[other]
  {
    if ch in store then Cleared(store[ch := []], true) else Cleared(store, false)
  }

  /** bot.py:245-248: closing a channel forgets its history, if it has one. */
  function Remove(store: Store, ch: ChannelId): (r: Store)
    ensures r.Keys == store.Keys - {ch}
    ensures forall other :: other in r ==> r[other] == store[other]
  {
    store - {ch}
  }

  /** Every store operation keeps every log within its deque's bound. */
  lemma StoreOperationsStayBounded(store: Store, cap: nat, ch: ChannelId, prompt: string,
                                   display: Option<string>, second: Option<string>)
    requires Bounded(store, cap)
    ensures Bounded(Open(store, ch), cap)
    ensures Bounded(Open(store, ch)[ch := Record(LogOf(store, ch), cap, prompt, display, second)], cap)
    ensures Bounded(Clear(store, ch).store, cap)
    ensures Bounded(Remove(store, ch), cap)
  {
  }

  /**
    With `MAX_HISTORY = 4`, three exchanges that each keep a user and an
    assistant turn leave exactly the second and third exchanges.
  */
  lemma ThreeExchangesKeepTwo(u1: string, a1: string, u2: string, a2: string, u3: string, a3: string)
    requires a1 != [] && a2 != [] && a3 != []
    ensures var l1 := Record([], 4, u1, Some("ok"), Some(a1));
      var l2 := Record(l1, 4, u2, Some("ok"), Some(a2));
      var l3 := Record(l2, 4, u3, Some("ok"), Some(a3));
      l3 == [Turn(User, u2), Turn(Assistant, a2), Turn(User, u3), Turn(Assistant, a3)]
  {
    var l1 := [Turn(User, u1), Turn(Assistant, a1)];
    var l2 := l1 + [Turn(User, u2), Turn(Assistant, a2)];
    var l3 := l2 + [Turn(User, u3), Turn(Assistant, a3)];
    Exchange([], u1, a1);
    assert [] + [Turn(User, u1), Turn(Assistant, a1)] == l1;
    Exchange(l1, u2, a2);
    Exchange(l2, u3, a3);
    assert l3[2..] == [Turn(User, u2), Turn(Assistant, a2), Turn(User, u3), Turn(Assistant, a3)];
  }

  /** One full exchange on a log of at most four turns. */
  lemma Exchange(log: Log, u: string, a: string)
    requires a != []
    ensures Record(log, 4, u, Some("ok"), Some(a)) == Latest(log + [Turn(User, u), Turn(Assistant, a)], 4)
  {
  }
}

=== FILE: models.dfy ===
/**
  The bot's one piece of global state besides the histories: the id of the
  DeepSeek model every request uses (bot.py:22-29), and the `/set_model`
  command that changes it (bot.py:202-226). The active model is always one of
  the three available ones.
*/
module ActiveModel {
  import opened Options
  import Completion

  const Chat: string := "deepseek-chat"
  const Coder: string := "deepseek-coder"

  /** The keys of `AVAILABLE_MODELS`. */
  const Models: set<string> := {Chat, Coder, Completion.Reasoner}

  const DefaultModel: string := Chat

  /** The one user allowed to switch models without the manage-server permission. */
  const SpecialAdmin: nat := 955813116426457178

  /**
    bot.py:28-29: the `DEEPSEEK_MODEL` setting when it names an available
    model, else the default (also when it is unset or empty).
  */
  function InitialModel(setting: Option<string>): (m: string)
    ensures m in Models
    ensures setting.Some? && setting.value in Models ==> m == setting.value
    ensures setting.None? || setting.value !in Models ==> m == DefaultModel
  {
    var requested := setting.GetOr(DefaultModel);
    if requested in Models then requested else DefaultModel
  }

  /** Who issued `/set_model`: whether inside a server, their user id, and their manage-server permission. */
  datatype Caller = Caller(inGuild: bool, userId: nat, manageGuild: bool)

  /** The reply `/set_model` gives. */
  datatype Verdict = NotInGuild | Denied | AlreadyActive | Switched | UnknownModel

  /** The active model after the command, and the command's reply. */
  datatype Switch = Switch(model: string, verdict: Verdict)

  /** May this caller switch models (bot.py:209-214)? */
  predicate Authorised(caller: Caller) {
    caller.inGuild && (caller.userId == SpecialAdmin || caller.manageGuild)
  }

  /**
    bot.py:205-226: the checks run in order: server membership, then
    permission, then whether the choice is already active, then whether it is
    an available model. The active model changes exactly when all four pass,
    and then becomes the choice.
  */
  function SetModel(current: string, chosen: string, caller: Caller): (s: Switch)
    ensures s.verdict == NotInGuild <==> !caller.inGuild
    ensures s.verdict == Denied <==> caller.inGuild && !Authorised(caller)
    ensures s.verdict == AlreadyActive <==> Authorised(caller) && chosen == current
    ensures s.verdict == UnknownModel <==> Authorised(caller) && chosen != current && chosen !in Models
    ensures s.verdict == Switched <==> Authorised(caller) && chosen != current && chosen in Models
    ensures s.verdict == Switched ==> s.model == chosen
    ensures s.verdict != Switched ==> s.model == current
  {
    if !caller.inGuild then Switch(current, NotInGuild)
    else if caller.userId != SpecialAdmin && !caller.manageGuild then Switch(current, Denied)
    else if chosen == current then Switch(current, AlreadyActive)
    else if chosen in Models then Switch(chosen, Switched)
    else Switch(current, UnknownModel)
  }

  /** One `/set_model` invocation: the model id picked, and who picked it. */
  datatype Command = Command(chosen: string, caller: Caller)

  /** The active model after a run of `/set_model` commands, in order. */
  function Run(current: string, cmds: seq<Command>): string
    decreases |cmds|
  {
    if cmds == [] then current
    else Run(SetModel(current, cmds[0].chosen, cmds[0].caller).model, cmds[1..])
  }

  /** Starting from an available model, no sequence of commands leaves the set of available models. */
  lemma {:induction false} ActiveStaysAvailable(current: string, cmds: seq<Command>)
    requires current in Models
    ensures Run(current, cmds) in Models
    decreases |cmds|
  {
    if cmds != [] {
      ActiveStaysAvailable(SetModel(current, cmds[0].chosen, cmds[0].caller).model, cmds[1..]);
    }
  }

  /** The model is chosen by configuration and then only by authorised callers. */
  lemma {:induction false} OnlyAuthorisedSwitch(current: string, cmds: seq<Command>)
    requires forall i :: 0 <= i < |cmds| ==> !Authorised(cmds[i].caller)
    ensures Run(current, cmds) == current
    decreases |cmds|
  {
    if cmds != [] {
      assert forall i :: 0 <= i < |cmds[1..]| ==> cmds[1..][i] == cmds[i + 1];
      OnlyAuthorisedSwitch(current, cmds[1..]);
    }
  }

  /** Whatever the setting and however `/set_model` is used afterwards, requests go to an available model. */
  lemma RequestsUseAvailableModel(setting: Option<string>, cmds: seq<Command>)
    ensures Run(InitialModel(setting), cmds) in Models
  {
    ActiveStaysAvailable(InitialModel(setting), cmds);
  }
}

=== FILE: options.dfy ===
/** The optional values the bot passes around: Python's `None` or a value. */
module Options {

  datatype Option<+T> = None | Some(value: T) {

    /** Returns the value held in Some, or `default` for None. */
    function GetOr(default: T): T {
      match this
      case Some(v) => v
      case None => default
    }
  }

  /** Python truthiness of an optional string: None and "" are both false. */
  predicate Truthy(o: Option<string>) {
    o.Some? && o.value != []
  }
}

=== FILE: relay.dfy ===
/**
  The message handler `on_message` (bot.py:256-301) as one pure step: which
  messages it answers, the request it sends, how the channel's history
  changes, and the messages it posts back. The API call itself is a
  parameter `api`, mapping the model id and the request to the reply.
*/
module Relay {
  import opened Options
  import opened Text
  import opened Splitter
  import opened Completion
  import opened History

  /** Private chat channels are named with this prefix (bot.py:35). */
  const PrivatePrefix: string := "deepseek-"

  const ErrorNotice: string := "抱歉，处理请求时出错：\n"
  const UnknownProblem: string := "抱歉，与 DeepSeek API 通信时未知问题。"

  /** The parts of a Discord message the handler looks at. */
  datatype Incoming = Incoming(
    channel: ChannelId,
    channelName: string,
    isTextChannel: bool,
    fromBot: bool,
    content: string)

  /**
    bot.py:257-265: the prompt a message carries, or None when the handler
    ignores it: messages by bots, outside a private text channel, that look
    like a slash command, or that have no text.
  */
  function PromptOf(msg: Incoming): (p: Option<string>)
    ensures p.None? <==>
      || msg.fromBot || !msg.isTextChannel || !StartsWith(msg.channelName, PrivatePrefix)
      || IsBlank(msg.content) || StartsWith(Strip(msg.content), "/")
    ensures p.Some? ==> p.value == Strip(msg.content) && p.value != [] && !IsSpace(p.value[0])
  {
    if msg.fromBot || !msg.isTextChannel || !StartsWith(msg.channelName, PrivatePrefix) then None
    else if StartsWith(Strip(msg.content), "/") then None
    else if Strip(msg.content) == [] then None
    else Some(Strip(msg.content))
  }

  /** The store after the handler ran, the request it sent (if any), and what it posted. */
  datatype Handled = Handled(store: Store, request: Option<seq<Turn>>, sent: seq<string>)

  /**
    bot.py:280-301: what the handler posts for an outcome: the display text,
    split when too long, or the error report, or a generic apology when the
    call returned neither.
  */
  function Posts(o: Outcome): (sent: seq<string>)
    ensures Truthy(o.display) ==> sent == Deliver(o.display.value)
    ensures !Truthy(o.display) && Truthy(o.second) ==> sent == [ErrorNotice + o.second.value]
    ensures forall i :: 0 <= i < |sent| ==> sent[i] != []
  {
    if Truthy(o.display) then Deliver(o.display.value)
    else if Truthy(o.second) then [ErrorNotice + o.second.value]
    else [UnknownProblem]
  }

  /**
    One run of the handler. An ignored message changes nothing. Otherwise the
    channel gets a deque if it had none and the request sent is its history
    plus the new user turn.
  */
  function Handle(store: Store, cap: nat, model: string, msg: Incoming, api: (string, seq<Turn>) -> Reply): (h: Handled)
    ensures PromptOf(msg).None? ==> h == Handled(store, None, [])
    ensures PromptOf(msg).Some? ==>
      && h.request == Some(LogOf(store, msg.channel) + [Turn(User, PromptOf(msg).value)])
      && h.store.Keys == store.Keys + {msg.channel}
  {
    match PromptOf(msg)
    case None => Handled(store, None, [])
    case Some(prompt) =>
      var withLog := Open(store, msg.channel);
      var log := withLog[msg.channel];
      var request := Request(log, prompt);
      var o := Shape(model, api(model, request));
      Handled(withLog[msg.channel := Record(log, cap, prompt, o.display, o.second)], Some(request), Posts(o))
  }

  /**
    Whatever the call returns, no other channel's history changes and every
    history stays within its bound.
  */
  lemma HandleFrame(store: Store, cap: nat, model: string, msg: Incoming, api: (string, seq<Turn>) -> Reply)
    ensures var h := Handle(store, cap, model, msg, api);
      && (forall c :: c in store && c != msg.channel ==> h.store[c] == store[c])
      && (Bounded(store, cap) ==> Bounded(h.store, cap))
  {
    if PromptOf(msg).Some? {
      var log := LogOf(store, msg.channel);
      var prompt := PromptOf(msg).value;
      var o := Shape(model, api(model, log + [Turn(User, prompt)]));
      var kept := Record(log, cap, prompt, o.display, o.second);
      HandleStore(store, cap, model, msg, api);
      assert Bounded(store, cap) ==> |kept| <= cap;
      SetAfterOpen(store, cap, msg.channel, kept);
    }
  }

  /** Opening a channel and replacing its log touches no other channel and keeps the bound. */
  lemma SetAfterOpen(store: Store, cap: nat, ch: ChannelId, log: Log)
    ensures var s := Open(store, ch)[ch := log];
      && (forall c :: c in store && c != ch ==> s[c] == store[c])
      && (Bounded(store, cap) && |log| <= cap ==> Bounded(s, cap))
  {
  }

  /** Whatever the call returns, nothing empty is posted. */
  lemma HandlePostsText(store: Store, cap: nat, model: string, msg: Incoming, api: (string, seq<Turn>) -> Reply)
    ensures var h := Handle(store, cap, model, msg, api);
      forall i :: 0 <= i < |h.sent| ==> h.sent[i] != []
  {
  }

  /**
    After a call, the channel's history and the posted messages follow the
    outcome: a failure leaves the stored turns as they were and posts one
    error report; a success posts the split display text and appends the
    user turn, then the assistant turn only when the final answer is
    non-empty, evicting the oldest turns beyond the bound.
  */
  lemma HandleOutcome(store: Store, cap: nat, model: string, msg: Incoming, api: (string, seq<Turn>) -> Reply)
    requires PromptOf(msg).Some?
    ensures var prompt := PromptOf(msg).value;
      var log := LogOf(store, msg.channel);
      var o := Shape(model, api(model, log + [Turn(User, prompt)]));
      var h := Handle(store, cap, model, msg, api);
      && (o.display.None? ==> h.store[msg.channel] == log && h.sent == [ErrorNotice + o.second.value])
      && (o.display.Some? ==> h.sent == Deliver(o.display.value))
      && (o.display.Some? && Truthy(o.second) ==>
            h.store[msg.channel] == Latest(log + [Turn(User, prompt), Turn(Assistant, o.second.value)], cap))
      && (o.display.Some? && !Truthy(o.second) ==>
            h.store[msg.channel] == Latest(log + [Turn(User, prompt)], cap))
  {
    var prompt := PromptOf(msg).value;
    var log := LogOf(store, msg.channel);
    var o := Shape(model, api(model, log + [Turn(User, prompt)]));
    assert o.display.Some? ==> Truthy(o.display);
  }

  /** A 200 reply whose first choice has something to show comes out as that choice's answer. */
  lemma FirstChoiceShape(model: string, m: Message, errorMessage: Option<string>, rendered: string)
    requires Answer(model, m).display.Some?
    ensures Shape(model, Answered(200, Decoded([m], errorMessage, rendered))) == Answer(model, m)
  {
    assert [m][0] == m;
  }

  /**
    The assistant turn the handler stores never depends on the reasoning
    trace: two 200 replies that differ only in the reasoning of their first
    choice, and both succeed, agree on success and on the text kept, so they
    record the same history. `SameRecordSameStore` lifts this to the store.
  */
  lemma HistoryIgnoresReasoning(log: Log, cap: nat, prompt: string, model: string,
                                m: Message, otherReasoning: Option<string>,
                                errorMessage: Option<string>, rendered: string)
    requires Answer(model, m).display.Some?
    requires Answer(model, m.(reasoning := otherReasoning)).display.Some?
    ensures var o1 := Shape(model, Answered(200, Decoded([m], errorMessage, rendered)));
      var o2 := Shape(model, Answered(200, Decoded([m.(reasoning := otherReasoning)], errorMessage, rendered)));
      && Truthy(o1.display) == Truthy(o2.display) && o1.second == o2.second
      && Record(log, cap, prompt, o1.display, o1.second) == Record(log, cap, prompt, o2.display, o2.second)
  {
    FirstChoiceShape(model, m, errorMessage, rendered);
    FirstChoiceShape(model, m.(reasoning := otherReasoning), errorMessage, rendered);
  }

  /** Two calls whose outcomes agree on success and on the text kept leave the same store. */
  lemma SameRecordSameStore(store: Store, cap: nat, model: string, msg: Incoming,
                            api1: (string, seq<Turn>) -> Reply, api2: (string, seq<Turn>) -> Reply,
                            r1: Reply, r2: Reply)
    requires PromptOf(msg).Some?
    requires api1(model, LogOf(store, msg.channel) + [Turn(User, PromptOf(msg).value)]) == r1
    requires api2(model, LogOf(store, msg.channel) + [Turn(User, PromptOf(msg).value)]) == r2
    requires Truthy(Shape(model, r1).display) == Truthy(Shape(model, r2).display)
    requires Shape(model, r1).second == Shape(model, r2).second
    ensures Handle(store, cap, model, msg, api1).store == Handle(store, cap, model, msg, api2).store
  {
    HandleStore(store, cap, model, msg, api1);
    HandleStore(store, cap, model, msg, api2);
  }

  /** A failed call leaves every stored turn in place; at most an empty deque is added. */
  lemma FailureKeepsHistory(store: Store, cap: nat, model: string, msg: Incoming, api: (string, seq<Turn>) -> Reply)
    requires PromptOf(msg).Some?
    requires Shape(model, api(model, LogOf(store, msg.channel) + [Turn(User, PromptOf(msg).value)])).display.None?
    ensures var h := Handle(store, cap, model, msg, api);
      && (msg.channel in store ==> h.store == store)
      && (msg.channel !in store ==> h.store == store[msg.channel := []])
  {
    var log := LogOf(store, msg.channel);
    var o := Shape(model, api(model, log + [Turn(User, PromptOf(msg).value)]));
    HandleStore(store, cap, model, msg, api);
    assert Record(log, cap, PromptOf(msg).value, o.display, o.second) == log;
    ReopenUnchanged(store, msg.channel);
  }

  /** The store after a handled message: the channel's deque, opened if need be, holds the recorded log. */
  lemma HandleStore(store: Store, cap: nat, model: string, msg: Incoming, api: (string, seq<Turn>) -> Reply)
    requires PromptOf(msg).Some?
    ensures var log := LogOf(store, msg.channel);
      var o := Shape(model, api(model, log + [Turn(User, PromptOf(msg).value)]));
      Handle(store, cap, model, msg, api).store
        == Open(store, msg.channel)[msg.channel := Record(log, cap, PromptOf(msg).value, o.display, o.second)]
  {
  }

  /** Putting a channel's own log back after opening it adds at most an empty deque. */
  lemma ReopenUnchanged(store: Store, ch: ChannelId)
    ensures ch in store ==> Open(store, ch)[ch := LogOf(store, ch)] == store
    ensures ch !in store ==> Open(store, ch)[ch := LogOf(store, ch)] == store[ch := []]
  {
    if ch in store {
      assert Open(store, ch)[ch := LogOf(store, ch)] == store;
    }
  }
}

=== FILE: splitter.dfy ===
/**
  The long-reply splitter of the bot's message handler (bot.py:285-299).
  A reply longer than Discord's message limit is cut, from a cursor that
  starts at 0, into pieces no longer than a search window: each cut prefers
  the last newline, then the last space, and otherwise falls at the window's
  end; a cut that would leave an odd number of code fences in the piece is
  pulled back to an earlier newline when one exists. The search for a
  newline is made even when the rest of the reply fits in the window, so the
  last stretch is cut too. The whitespace after each cut is skipped, and
  blank pieces are dropped when sending.
*/
module Splitter {
  import opened Text

  /** Discord's limit on one message, in characters. */
  const MessageLimit: nat := 2000

  /** Largest piece the splitter cuts: the limit less a safety margin of 10. */
  const Window: nat := 1990

  /** Some index `i` with `lo <= i < hi` holds `c`. */
  predicate HasCharIn(s: string, c: char, lo: int, hi: int)
    requires 0 <= lo && hi <= |s|
  {
    exists i :: lo <= i < hi && s[i] == c
  }

  /** `k` is the last index in `[lo, hi)` that holds `c`. */
  predicate IsLastIn(s: string, c: char, k: int, lo: int, hi: int)
    requires 0 <= lo && hi <= |s|
  {
    && lo <= k < hi
    && s[k] == c
    && forall i :: k < i < hi ==> s[i] != c
  }

  /** There is only one last occurrence. */
  lemma LastIsUnique(s: string, c: char, p: int, q: int, lo: int, hi: int)
    requires 0 <= lo && hi <= |s|
    requires IsLastIn(s, c, p, lo, hi) && IsLastIn(s, c, q, lo, hi)
    ensures p == q
  {
  }

  /** End of the search window that starts at `cur`. */
  function CutOff(s: string, cur: nat): (e: nat)
    requires cur < |s|
    ensures cur < e <= |s| && e <= cur + Window
    ensures e == |s| || e == cur + Window
  {
    Min(cur + Window, |s|)
  }

  /**
    The split point before the fence guard: the last newline strictly after
    the cursor inside the window, else the last space strictly after the
    cursor, else the window's end.
  */
  function Preferred(s: string, cur: nat): (k: nat)
    requires cur < |s|
    ensures cur < k <= CutOff(s, cur)
    ensures HasCharIn(s, '\n', cur + 1, CutOff(s, cur)) ==>
              IsLastIn(s, '\n', k, cur + 1, CutOff(s, cur))
    ensures !HasCharIn(s, '\n', cur + 1, CutOff(s, cur)) && HasCharIn(s, ' ', cur + 1, CutOff(s, cur)) ==>
              IsLastIn(s, ' ', k, cur + 1, CutOff(s, cur))
    ensures !HasCharIn(s, '\n', cur + 1, CutOff(s, cur)) && !HasCharIn(s, ' ', cur + 1, CutOff(s, cur)) ==>
              k == CutOff(s, cur)
  {
    var cutOff := CutOff(s, cur);
    var newline := RFind(s, '\n', cur, cutOff);
    if newline > cur then newline
    else
      var space := RFind(s, ' ', cur, cutOff);
      if space > cur then space else cutOff
  }

  /** The piece `s[cur..k]` would end inside an open code block. */
  predicate OddFences(s: string, cur: nat, k: nat)
    requires cur <= k <= |s|
  {
    CountFences(s[cur..k]) % 2 != 0
  }

  /**
    The split point actually used: the preferred one, unless the piece it
    delimits holds an odd number of fences, in which case the last newline
    strictly after the cursor and before `p - 1` is used, if there is one.
  */
  function Cut(s: string, cur: nat): (k: nat)
    requires cur < |s|
    ensures cur < k <= Preferred(s, cur)
    ensures !OddFences(s, cur, Preferred(s, cur)) ==> k == Preferred(s, cur)
    ensures OddFences(s, cur, Preferred(s, cur)) && HasCharIn(s, '\n', cur + 1, Preferred(s, cur) - 1) ==>
              IsLastIn(s, '\n', k, cur + 1, Preferred(s, cur) - 1)
    ensures OddFences(s, cur, Preferred(s, cur)) && !HasCharIn(s, '\n', cur + 1, Preferred(s, cur) - 1) ==>
              k == Preferred(s, cur)
  {
    var split := Preferred(s, cur);
    var chunk := s[cur..split];
    if Contains(chunk, Fence) && CountFences(chunk) % 2 != 0 then
      var fallback := RFind(s, '\n', cur, split - 1);
      if fallback > cur then fallback else split
    else split
  }

  /** The `in` test of the fence guard adds nothing to its parity test. */
  lemma FenceTestIsParity(chunk: string)
    ensures (Contains(chunk, Fence) && CountFences(chunk) % 2 != 0) == (CountFences(chunk) % 2 != 0)
  {
  }

  /** Index of the first non-whitespace character at or after `k`, or `|s|`. */
  function SkipSpace(s: string, k: nat): (n: nat)
    requires k <= |s|
    ensures k <= n <= |s|
    ensures IsBlank(s[k..n])
    ensures n == |s| || !IsSpace(s[n])
    decreases |s| - k
  {
    if k < |s| && IsSpace(s[k]) then
      var n := SkipSpace(s, k + 1);
      assert s[k..n] == [s[k]] + s[k + 1..n];
      n
    else k
  }

  /** One piece cut from the reply, with the whitespace run skipped after it. */
  datatype Piece = Piece(text: string, gap: string)

  /** The reply as the pieces make it up: every text followed by its gap. */
  function Flatten(ps: seq<Piece>): string
    decreases |ps|
  {
    if ps == [] then "" else ps[0].text + ps[0].gap + Flatten(ps[1..])
  }

  function Texts(ps: seq<Piece>): (ts: seq<string>)
    ensures |ts| == |ps|
    ensures forall i :: 0 <= i < |ps| ==> ts[i] == ps[i].text
    decreases |ps|
  {
    if ps == [] then [] else [ps[0].text] + Texts(ps[1..])
  }

  /**
    The pieces of `s[cur..]`, as the splitting loop cuts them. There are
    pieces exactly while text is left, and never more than characters left,
    since every cut moves the cursor forward.
  */
  function Pieces(s: string, cur: nat): (ps: seq<Piece>)
    requires cur <= |s|
    ensures ps != [] <==> cur < |s|
    ensures |ps| <= |s| - cur
    decreases |s| - cur
  {
    if cur == |s| then []
    else
      var k := Cut(s, cur);
      [Piece(s[cur..k], s[k..SkipSpace(s, k)])] + Pieces(s, SkipSpace(s, k))
  }

  /**
    Every piece is non-empty and fits the window, every gap is whitespace,
    every piece but the first starts with a non-space, and the pieces with
    their gaps give back exactly the text they were cut from.
  */
  lemma {:induction false} PiecesSound(s: string, cur: nat)
    requires cur <= |s|
    ensures Flatten(Pieces(s, cur)) == s[cur..]
    ensures forall i :: 0 <= i < |Pieces(s, cur)| ==> 0 < |Pieces(s, cur)[i].text| <= Window
    ensures forall i :: 0 <= i < |Pieces(s, cur)| ==> IsBlank(Pieces(s, cur)[i].gap)
    ensures forall i :: 0 < i < |Pieces(s, cur)| ==> !IsSpace(Pieces(s, cur)[i].text[0])
    ensures |Pieces(s, cur)| > 0 ==> Pieces(s, cur)[0].text[0] == s[cur]
    ensures |Pieces(s, cur)| <= |s| - cur
    decreases |s| - cur
  {
    if cur < |s| {
      var k := Cut(s, cur);
      var next := SkipSpace(s, k);
      PiecesSound(s, next);
      PiecesCons(s, cur, k, next, Pieces(s, next));
    }
  }

  /** One step of `Pieces`: a cut and its skipped gap in front of well-cut pieces. */
  lemma PiecesCons(s: string, cur: nat, k: nat, next: nat, rest: seq<Piece>)
    requires cur < k <= next <= |s| && k - cur <= Window
    requires IsBlank(s[k..next])
    requires next == |s| || !IsSpace(s[next])
    requires Flatten(rest) == s[next..]
    requires forall i :: 0 <= i < |rest| ==> 0 < |rest[i].text| <= Window
    requires forall i :: 0 <= i < |rest| ==> IsBlank(rest[i].gap)
    requires forall i :: 0 < i < |rest| ==> !IsSpace(rest[i].text[0])
    requires |rest| > 0 ==> rest[0].text[0] == s[next]
    requires |rest| <= |s| - next
    ensures var ps := [Piece(s[cur..k], s[k..next])] + rest;
      && Flatten(ps) == s[cur..]
      && (forall i :: 0 <= i < |ps| ==> 0 < |ps[i].text| <= Window)
      && (forall i :: 0 <= i < |ps| ==> IsBlank(ps[i].gap))
      && (forall i :: 0 < i < |ps| ==> !IsSpace(ps[i].text[0]))
      && ps[0].text[0] == s[cur]
      && |ps| <= |s| - cur
  {
    var p := Piece(s[cur..k], s[k..next]);
    var ps := [p] + rest;
    FlattenCons(p, rest);
    assert s[cur..] == s[cur..k] + s[k..next] + s[next..];
    assert forall i :: 0 < i < |ps| ==> ps[i] == rest[i - 1];
  }

  lemma FlattenCons(p: Piece, rest: seq<Piece>)
    ensures Flatten([p] + rest) == p.text + p.gap + Flatten(rest)
  {
    assert ([p] + rest)[1..] == rest;
  }

  /**
    The splitting loop of bot.py:288-295, as written there. Its result is the
    piece texts of `Pieces(s, 0)`: each non-empty and at most `Window` long.
  */
  method SplitLong(s: string) returns (parts: seq<string>)
    ensures parts == Texts(Pieces(s, 0))
    ensures forall i :: 0 <= i < |parts| ==> 0 < |parts[i]| <= Window
  {
    parts := [];
    var pos: nat := 0;
    while pos < |s|
      invariant pos <= |s|
      invariant parts + Texts(Pieces(s, pos)) == Texts(Pieces(s, 0))
      decreases |s| - pos
    {
      parts, pos := SplitStep(s, parts, pos);
    }
    SplitDone(s, parts, pos);
  }

  /** One iteration of the splitting loop: cut one part and skip the whitespace after it. */
  method SplitStep(s: string, parts: seq<string>, pos: nat) returns (parts': seq<string>, pos': nat)
    requires pos < |s|
    requires parts + Texts(Pieces(s, pos)) == Texts(Pieces(s, 0))
    ensures pos < pos' <= |s|
    ensures parts' + Texts(Pieces(s, pos')) == Texts(Pieces(s, 0))
  {
    var split := NextSplit(s, pos);
    pos' := SkipWhitespace(s, split);
    parts' := parts + [s[pos..split]];
    StepKeepsParts(s, parts, pos);
  }

  /** Taking the next cut moves one part from the pieces still to cut to the parts collected. */
  lemma StepKeepsParts(s: string, parts: seq<string>, pos: nat)
    requires pos < |s|
    requires parts + Texts(Pieces(s, pos)) == Texts(Pieces(s, 0))
    ensures (parts + [s[pos..Cut(s, pos)]]) + Texts(Pieces(s, SkipSpace(s, Cut(s, pos)))) == Texts(Pieces(s, 0))
  {
    var rest := Texts(Pieces(s, SkipSpace(s, Cut(s, pos))));
    PiecesStep(s, pos);
    Associative(parts, [s[pos..Cut(s, pos)]], rest);
  }

  /** When the cursor reaches the end, the parts collected are all of them. */
  lemma SplitDone(s: string, parts: seq<string>, pos: nat)
    requires pos == |s|
    requires parts + Texts(Pieces(s, pos)) == Texts(Pieces(s, 0))
    ensures parts == Texts(Pieces(s, 0))
    ensures forall i :: 0 <= i < |parts| ==> 0 < |parts[i]| <= Window
  {
    assert parts + Texts(Pieces(s, pos)) == parts;
    PiecesSound(s, 0);
  }

  /** Line 295 of bot.py: the cursor moves past the whitespace after a cut. */
  method SkipWhitespace(s: string, split: nat) returns (pos: nat)
    requires split <= |s|
    ensures pos == SkipSpace(s, split)
  {
    pos := split;
    while pos < |s| && IsSpace(s[pos])
      invariant split <= pos <= |s|
      invariant SkipSpace(s, pos) == SkipSpace(s, split)
      decreases |s| - pos
    {
      assert SkipSpace(s, pos) == SkipSpace(s, pos + 1);
      pos := pos + 1;
    }
  }

  /** Lines 290-293 of bot.py: where the piece starting at `pos` ends. */
  method NextSplit(s: string, pos: nat) returns (split: nat)
    requires pos < |s|
    ensures split == Cut(s, pos)
    ensures pos < split <= pos + Window
  {
    var cutOff := Min(pos + Window, |s|);
    var found := RFind(s, '\n', pos, cutOff);
    if found <= pos {
      var space := RFind(s, ' ', pos, cutOff);
      split := if space > pos then space else cutOff;
    } else {
      split := found;
    }
    var chunk := s[pos..split];
    if Contains(chunk, Fence) && CountFences(chunk) % 2 != 0 {
      var fallback := RFind(s, '\n', pos, split - 1);
      split := if fallback > pos then fallback else split;
    }
  }

  /** The texts of `Pieces` unfolded once. */
  lemma PiecesStep(s: string, cur: nat)
    requires cur < |s|
    ensures Texts(Pieces(s, cur)) == [s[cur..Cut(s, cur)]] + Texts(Pieces(s, SkipSpace(s, Cut(s, cur))))
  {
    var rest := Pieces(s, SkipSpace(s, Cut(s, cur)));
    assert Pieces(s, cur)[1..] == rest;
  }

  // ------------------------------------------------------------- sending

  /** The messages sent for the parts: each stripped, the blank ones dropped (bot.py:296-299). */
  function Sendable(parts: seq<string>): (msgs: seq<string>)
    ensures |msgs| <= |parts|
    ensures forall i :: 0 <= i < |msgs| ==> msgs[i] != [] && !IsSpace(msgs[i][0])
    decreases |parts|
  {
    if parts == [] then []
    else if IsBlank(parts[0]) then Sendable(parts[1..])
    else [Strip(parts[0])] + Sendable(parts[1..])
  }

  /** A part the sending loop does not skip. */
  predicate NonBlank(part: string) {
    !IsBlank(part)
  }

  /** The sending loop is the filtered map that strips the non-blank parts. */
  lemma {:induction false} SendableIsFilterMap(parts: seq<string>)
    ensures Sendable(parts) == FilterMap(parts, NonBlank, Strip)
    decreases |parts|
  {
    if parts != [] {
      SendableIsFilterMap(parts[1..]);
    }
  }

  /**
    The messages sent are the non-blank parts, stripped, in their order:
    there is an increasing list of exactly the non-blank parts' indices whose
    `j`-th entry is the part the `j`-th message comes from.
  */
  lemma SendableSelects(parts: seq<string>) returns (idx: seq<nat>)
    ensures Selection(parts, NonBlank, idx)
    ensures |idx| == |Sendable(parts)|
    ensures forall j :: 0 <= j < |idx| ==> idx[j] < |parts| && Sendable(parts)[j] == Strip(parts[idx[j]])
  {
    SendableIsFilterMap(parts);
    idx := FilterMapSelects(parts, NonBlank, Strip);
  }

  /** When no part is blank, every part is sent, stripped, in place. */
  lemma NoBlankPartSent(parts: seq<string>)
    requires forall i :: 0 <= i < |parts| ==> !IsBlank(parts[i])
    ensures |Sendable(parts)| == |parts|
    ensures forall i :: 0 <= i < |parts| ==> Sendable(parts)[i] == Strip(parts[i])
  {
    SendableIsFilterMap(parts);
    FilterMapAllKept(parts, NonBlank, Strip);
  }

  /**
    What the handler sends for a displayable reply: the reply itself when it
    fits one message, otherwise the sendable parts of its split.
  */
  function Deliver(display: string): (msgs: seq<string>)
    ensures forall i :: 0 <= i < |msgs| ==> |msgs[i]| <= MessageLimit
    ensures display != [] ==> forall i :: 0 <= i < |msgs| ==> msgs[i] != []
    ensures |display| <= MessageLimit <==> msgs == [display]
  {
    if |display| <= MessageLimit then [display]
    else
      var parts := Texts(Pieces(display, 0));
      PiecesSound(display, 0);
      SendableBounded(parts);
      var msgs := Sendable(parts);
      assert |msgs| > 0 ==> |msgs[0]| <= Window;
      msgs
  }

  lemma {:induction false} SendableBounded(parts: seq<string>)
    requires forall i :: 0 <= i < |parts| ==> |parts[i]| <= Window
    ensures forall i :: 0 <= i < |Sendable(parts)| ==> |Sendable(parts)[i]| <= Window
    decreases |parts|
  {
    if parts != [] {
      SendableBounded(parts[1..]);
    }
  }

  // ---------------------------------------------------------- properties

  /** The gaps are whitespace, so the pieces carry every visible character of the reply. */
  lemma {:induction false} VisibleFlatten(ps: seq<Piece>)
    requires forall i :: 0 <= i < |ps| ==> IsBlank(ps[i].gap)
    ensures Visible(Flatten(ps)) == Visible(Concat(Texts(ps)))
    decreases |ps|
  {
    if ps != [] {
      var p := ps[0];
      var rest := ps[1..];
      assert forall i :: 0 <= i < |rest| ==> rest[i] == ps[i + 1];
      VisibleFlatten(rest);
      assert Texts(ps)[1..] == Texts(rest);
      VisibleAppend(p.text + p.gap, Flatten(rest));
      VisibleAppend(p.text, p.gap);
      VisibleBlank(p.gap);
      VisibleAppend(p.text, Concat(Texts(rest)));
      calc {
        Visible(Flatten(ps));
        Visible(p.text + p.gap + Flatten(rest));
        Visible(p.text + p.gap) + Visible(Flatten(rest));
        Visible(p.text) + Visible(p.gap) + Visible(Concat(Texts(rest)));
        { assert Visible(p.text) + "" == Visible(p.text); }
        Visible(p.text + Concat(Texts(rest)));
        Visible(Concat(Texts(ps)));
      }
    }
  }

  /** Dropping blank parts and stripping the rest loses no visible character. */
  lemma {:induction false} VisibleSendable(parts: seq<string>)
    ensures Visible(Concat(Sendable(parts))) == Visible(Concat(parts))
    decreases |parts|
  {
    if parts != [] {
      VisibleSendable(parts[1..]);
      VisibleAppend(parts[0], Concat(parts[1..]));
      if IsBlank(parts[0]) {
        VisibleBlank(parts[0]);
      } else {
        assert Sendable(parts)[1..] == Sendable(parts[1..]);
        VisibleAppend(Strip(parts[0]), Concat(Sendable(parts[1..])));
        VisibleStrip(parts[0]);
      }
    }
  }

  /**
    The messages sent for a reply, read one after the other, show exactly
    the reply's visible characters, in order: splitting only ever drops
    whitespace.
  */
  lemma DeliverKeepsVisibleText(display: string)
    ensures Visible(Concat(Deliver(display))) == Visible(display)
  {
    if |display| <= MessageLimit {
      assert Deliver(display) == [display];
      assert [display][1..] == [];
      assert Concat([display]) == display + "";
      assert display + "" == display;
    } else {
      var ps := Pieces(display, 0);
      PiecesSound(display, 0);
      VisibleFlatten(ps);
      VisibleSendable(Texts(ps));
    }
  }

  /**
    A reply that does not start with whitespace (every reply the handler
    splits is stripped) yields no blank piece, so the blank-part filter of
    the sending loop never drops anything for it.
  */
  lemma NoBlankPieceWhenTrimmed(s: string)
    requires s != [] && !IsSpace(s[0])
    ensures forall i :: 0 <= i < |Pieces(s, 0)| ==> !IsBlank(Pieces(s, 0)[i].text)
    ensures |Sendable(Texts(Pieces(s, 0)))| == |Pieces(s, 0)|
  {
    var ps := Pieces(s, 0);
    PiecesSound(s, 0);
    TextsNotBlank(ps);
    NoBlankPartSent(Texts(ps));
  }

  /** Pieces whose texts start with a visible character have no blank text. */
  lemma TextsNotBlank(ps: seq<Piece>)
    requires |ps| > 0 ==> ps[0].text != [] && !IsSpace(ps[0].text[0])
    requires forall i :: 0 < i < |ps| ==> ps[i].text != [] && !IsSpace(ps[i].text[0])
    ensures forall i :: 0 <= i < |ps| ==> !IsBlank(ps[i].text)
    ensures forall i :: 0 <= i < |Texts(ps)| ==> !IsBlank(Texts(ps)[i])
  {
    forall i | 0 <= i < |ps|
      ensures !IsBlank(ps[i].text)
    {
      VisibleStart(ps[i].text);
    }
  }

  lemma VisibleStart(t: string)
    requires t != [] && !IsSpace(t[0])
    ensures !IsBlank(t)
  {
  }

  /**
    The rest of a reply is cut even when it fits one window. When the text
    from `cur` to the end fits the window and holds a newline after the
    cursor, the preferred split is that last newline, not the end of the
    reply: line 290 of bot.py searches for it whatever length is left. The
    cut falls there unless the fence guard pulls it further back. If the
    reply ends in a visible character, its rest goes out as two or more
    pieces.
  */
  lemma FinalWindowStillCut(s: string, cur: nat)
    requires cur < |s| <= cur + Window
    requires HasCharIn(s, '\n', cur + 1, |s|)
    ensures CutOff(s, cur) == |s|
    ensures IsLastIn(s, '\n', Preferred(s, cur), cur + 1, |s|)
    ensures !OddFences(s, cur, Preferred(s, cur)) ==> Cut(s, cur) == Preferred(s, cur)
    ensures Cut(s, cur) < |s|
    ensures !IsSpace(s[|s| - 1]) ==> |Pieces(s, cur)| >= 2
  {
    var k := Cut(s, cur);
    var next := SkipSpace(s, k);
    if !IsSpace(s[|s| - 1]) {
      assert next < |s|;
      assert Pieces(s, cur) == [Piece(s[cur..k], s[k..next])] + Pieces(s, next);
      assert Pieces(s, next) != [];
    }
  }

  /** With no whitespace left from `cur` on, the cut is a hard cut at the window's end. */
  lemma HardCut(s: string, cur: nat)
    requires cur < |s|
    requires forall i :: cur <= i < |s| ==> !IsSpace(s[i])
    ensures Cut(s, cur) == CutOff(s, cur)
    ensures SkipSpace(s, CutOff(s, cur)) == CutOff(s, cur)
  {
    var e := CutOff(s, cur);
    NoSpaceCharIn(s, '\n', cur + 1, e);
    NoSpaceCharIn(s, ' ', cur + 1, e);
    NoSpaceCharIn(s, '\n', cur + 1, Preferred(s, cur) - 1);
  }

  /** A stretch without whitespace holds no given whitespace character. */
  lemma NoSpaceCharIn(s: string, c: char, lo: nat, hi: int)
    requires IsSpace(c) && hi <= |s|
    requires forall i :: lo <= i < |s| ==> !IsSpace(s[i])
    ensures !HasCharIn(s, c, lo, hi)
  {
  }

  /** With no whitespace left from `cur` on, `Pieces` makes one hard cut and carries on from there. */
  lemma HardStep(s: string, cur: nat)
    requires cur < |s|
    requires forall i :: cur <= i < |s| ==> !IsSpace(s[i])
    ensures Pieces(s, cur) == [Piece(s[cur..CutOff(s, cur)], "")] + Pieces(s, CutOff(s, cur))
  {
    HardCut(s, cur);
    var e := CutOff(s, cur);
    assert s[e..e] == "";
    assert Pieces(s, cur) == [Piece(s[cur..e], s[e..SkipSpace(s, e)])] + Pieces(s, SkipSpace(s, e));
  }

  /**
    A reply of 4500 characters with no whitespace is cut at 1990, 3980 and
    4500: three hard cuts.
  */
  lemma HardCutsOf4500(s: string)
    requires |s| == 4500
    requires forall i :: 0 <= i < |s| ==> !IsSpace(s[i])
    ensures Texts(Pieces(s, 0)) == [s[0..1990], s[1990..3980], s[3980..4500]]
  {
    var p1 := [Piece(s[0..1990], ""), Piece(s[1990..3980], ""), Piece(s[3980..4500], "")];
    HardStep(s, 0);
    HardTail(s, 1990, 3980);
    ConsThree(p1[0], p1[1], p1[2]);
    TextsOfThree(p1[0], p1[1], p1[2]);
  }

  lemma TextsOfThree(a: Piece, b: Piece, c: Piece)
    ensures Texts([a, b, c]) == [a.text, b.text, c.text]
  {
  }

  /** The last two hard cuts of a whitespace-free tail holding more than one and at most two windows. */
  lemma HardTail(s: string, cur: nat, mid: nat)
    requires mid == cur + Window && mid < |s| <= mid + Window
    requires forall i :: cur <= i < |s| ==> !IsSpace(s[i])
    ensures Pieces(s, cur) == [Piece(s[cur..mid], ""), Piece(s[mid..|s|], "")]
  {
    HardStep(s, mid);
    NoPiecesAtEnd(s);
    HardStep(s, cur);
    ConsTwo(Piece(s[cur..mid], ""), Piece(s[mid..|s|], ""));
  }

  lemma NoPiecesAtEnd(s: string)
    ensures Pieces(s, |s|) == []
  {
  }

  /** Two pieces consed onto nothing form their display; a lemma so the caller does not compare displays element by element. */
  lemma ConsTwo(a: Piece, b: Piece)
    ensures [a] + ([b] + []) == [a, b]
  {
  }


  /**
    Cutting at a newline can cost a piece: "a", a newline and 3978 further
    non-space characters (3980 in all, two windows' worth) are cut into
    three pieces, "a" and two hard cuts.
  */
  lemma EarlyNewlineCostsAPiece(s: string)
    requires |s| == 3980 && s[1] == '\n'
    requires !IsSpace(s[0])
    requires forall i :: 2 <= i < |s| ==> !IsSpace(s[i])
    ensures Texts(Pieces(s, 0)) == [s[0..1], s[2..1992], s[1992..3980]]
  {
    var p1 := [Piece(s[0..1], s[1..2]), Piece(s[2..1992], ""), Piece(s[1992..3980], "")];
    CutAtEarlyNewline(s);
    HardTail(s, 2, 1992);
    ConsThree(Piece(s[0..1], s[1..2]), Piece(s[2..1992], ""), Piece(s[1992..3980], ""));
    TextsOfThree(p1[0], p1[1], p1[2]);
  }

  /** As `ConsTwo`, for a third piece in front. */
  lemma ConsThree(a: Piece, b: Piece, c: Piece)
    ensures [a] + [b, c] == [a, b, c]
  {
  }

  lemma CutAtEarlyNewline(s: string)
    requires |s| == 3980 && s[1] == '\n'
    requires forall i :: 2 <= i < |s| ==> !IsSpace(s[i])
    ensures Pieces(s, 0) == [Piece(s[0..1], s[1..2])] + Pieces(s, 2)
  {
    assert IsLastIn(s, '\n', 1, 1, CutOff(s, 0)) by {
      forall i | 1 < i < CutOff(s, 0) ensures s[i] != '\n' {
        assert !IsSpace(s[i]);
      }
    }
    assert CountFences(s[0..1]) == 0;
    assert Cut(s, 0) == 1;
    assert SkipSpace(s, 2) == 2;
    assert SkipSpace(s, 1) == 2;
  }

  /**
    A reply that closes with a short code block after nearly a full window
    of text: 1990 visible characters without a backtick, then
    "b\n```\nx\n```" (2001 characters in all).
  */
  predicate ClosingBlockReply(s: string) {
    && |s| == 2001
    && s[1990..] == "b\n```\nx\n```"
    && forall i :: 0 <= i < 1990 ==> !IsSpace(s[i]) && s[i] != '`'
  }

  /**
    Such a reply is posted as four messages: the first window, then "b\n```"
    (the cut at the last newline would leave one fence open, so it is pulled
    back), then "x", then the closing fence on its own.
  */
  lemma ClosingBlockInFour(s: string)
    requires ClosingBlockReply(s)
    ensures Texts(Pieces(s, 0)) == [s[..1990], "b\n```", "x", "```"]
  {
    ClosingPieces(s);
    var a, b, c, d := Piece(s[0..1990], s[1990..1990]), Piece(s[1990..1995], s[1995..1996]),
                      Piece(s[1996..1997], s[1997..1998]), Piece(s[1998..2001], s[2001..2001]);
    TextsOfFour(a, b, c, d);
    ClosingTexts(s);
  }

  /** The pieces of a `ClosingBlockReply`, as slices of it. */
  lemma ClosingPieces(s: string)
    requires ClosingBlockReply(s)
    ensures Pieces(s, 0) == [Piece(s[0..1990], s[1990..1990]), Piece(s[1990..1995], s[1995..1996]),
                             Piece(s[1996..1997], s[1997..1998]), Piece(s[1998..2001], s[2001..2001])]
  {
    ClosingStepAt0(s);
    ClosingStepAt1990(s);
    ClosingStepAt1996(s);
    ClosingStepAt1998(s);
    ConsFour(Pieces(s, 0), Pieces(s, 1990), Pieces(s, 1996), Pieces(s, 1998),
             Piece(s[0..1990], s[1990..1990]), Piece(s[1990..1995], s[1995..1996]),
             Piece(s[1996..1997], s[1997..1998]), Piece(s[1998..2001], s[2001..2001]));
  }

  lemma ClosingStepAt0(s: string)
    requires ClosingBlockReply(s)
    ensures Pieces(s, 0) == [Piece(s[0..1990], s[1990..1990])] + Pieces(s, 1990)
  {
    FirstWindowCut(s);
    ClosingChars(s);
    StepAt(s, 0, 1990, 1990);
  }

  lemma ClosingStepAt1990(s: string)
    requires ClosingBlockReply(s)
    ensures Pieces(s, 1990) == [Piece(s[1990..1995], s[1995..1996])] + Pieces(s, 1996)
  {
    BlockCut(s);
    ClosingChars(s);
    SkipOne(s, 1995);
    StepAt(s, 1990, 1995, 1996);
  }

  lemma ClosingStepAt1996(s: string)
    requires ClosingBlockReply(s)
    ensures Pieces(s, 1996) == [Piece(s[1996..1997], s[1997..1998])] + Pieces(s, 1998)
  {
    InnerLineCut(s);
    ClosingChars(s);
    SkipOne(s, 1997);
    StepAt(s, 1996, 1997, 1998);
  }

  lemma ClosingStepAt1998(s: string)
    requires ClosingBlockReply(s)
    ensures Pieces(s, 1998) == [Piece(s[1998..2001], s[2001..2001])] + []
  {
    ClosingFenceCut(s);
    StepAt(s, 1998, 2001, 2001);
    NoPiecesAtEnd(s);
  }

  lemma TextsOfFour(a: Piece, b: Piece, c: Piece, d: Piece)
    ensures Texts([a, b, c, d]) == [a.text, b.text, c.text, d.text]
  {
  }

  /** The texts of the last three pieces. */
  lemma ClosingTexts(s: string)
    requires ClosingBlockReply(s)
    ensures s[1990..1995] == "b\n```" && s[1996..1997] == "x" && s[1998..2001] == "```"
  {
    var t := s[1990..];
    assert s[1990..1995] == t[0..5];
    assert s[1996..1997] == t[6..7];
    assert s[1998..2001] == t[8..11];
  }

  /** The eleven characters that close a `ClosingBlockReply`, one by one. */
  lemma ClosingChars(s: string)
    requires ClosingBlockReply(s)
    ensures s[1990] == 'b' && s[1991] == '\n'
    ensures s[1992] == '`' && s[1993] == '`' && s[1994] == '`' && s[1995] == '\n'
    ensures s[1996] == 'x' && s[1997] == '\n'
    ensures s[1998] == '`' && s[1999] == '`' && s[2000] == '`'
  {
    var t := s[1990..];
    assert s[1990] == t[0] && s[1991] == t[1] && s[1992] == t[2] && s[1993] == t[3];
    assert s[1994] == t[4] && s[1995] == t[5] && s[1996] == t[6] && s[1997] == t[7];
    assert s[1998] == t[8] && s[1999] == t[9] && s[2000] == t[10];
  }

  /** Skipping from a whitespace character followed by a visible one moves one step. */
  lemma SkipOne(s: string, k: nat)
    requires k + 1 < |s| && IsSpace(s[k]) && !IsSpace(s[k + 1])
    ensures SkipSpace(s, k) == k + 1
  {
  }

  lemma FirstWindowCut(s: string)
    requires ClosingBlockReply(s)
    ensures Cut(s, 0) == 1990
  {
    assert !HasCharIn(s, '\n', 1, 1990) && !HasCharIn(s, ' ', 1, 1990) by {
      forall i | 1 <= i < 1990
        ensures s[i] != '\n' && s[i] != ' '
      {
        assert !IsSpace(s[i]);
      }
    }
    assert !Contains(s[0..1990], Fence) by {
      forall i | 0 <= i <= 1990 - 3
        ensures !OccursAt(s[0..1990], Fence, i)
      {
        assert s[0..1990][i] != Fence[0];
      }
    }
  }

  lemma BlockCut(s: string)
    requires ClosingBlockReply(s)
    ensures Cut(s, 1990) == 1995
  {
    ClosingChars(s);
    assert IsLastIn(s, '\n', 1997, 1991, 2001);
    LastIsUnique(s, '\n', Preferred(s, 1990), 1997, 1991, 2001);
    assert s[1990..1997] == "b\n```\nx";
    OneFenceIn();
    assert IsLastIn(s, '\n', 1995, 1991, 1996);
    LastIsUnique(s, '\n', Cut(s, 1990), 1995, 1991, 1996);
  }

  /** "b\n```\nx" holds one fence. */
  lemma OneFenceIn()
    ensures CountFences("b\n```\nx") == 1
  {
    var w := "b\n```\nx";
    assert w[..3] != Fence by { assert w[..3][0] == 'b'; }
    assert w[1..][..3] != Fence by { assert w[1..][..3][0] == '\n'; }
    assert w[1..][1..] == "```\nx";
    assert "```\nx"[..3] == Fence;
    assert "```\nx"[3..] == "\nx";
    assert CountFences("\nx") == 0;
  }

  lemma InnerLineCut(s: string)
    requires ClosingBlockReply(s)
    ensures Cut(s, 1996) == 1997
  {
    ClosingChars(s);
    assert IsLastIn(s, '\n', 1997, 1997, 2001);
    LastIsUnique(s, '\n', Preferred(s, 1996), 1997, 1997, 2001);
    assert s[1996..1997] == "x";
  }

  lemma ClosingFenceCut(s: string)
    requires ClosingBlockReply(s)
    ensures Cut(s, 1998) == 2001
  {
    ClosingChars(s);
    assert !HasCharIn(s, '\n', 1999, 2001);
    assert !HasCharIn(s, ' ', 1999, 2001);
    assert s[1998..2001] == "```";
    assert !HasCharIn(s, '\n', 1999, 2000);
  }

  /** One unfolding of `Pieces`, at a cut and skip the caller already knows. */
  lemma StepAt(s: string, cur: nat, k: nat, next: nat)
    requires cur < |s| && Cut(s, cur) == k && SkipSpace(s, k) == next
    ensures Pieces(s, cur) == [Piece(s[cur..k], s[k..next])] + Pieces(s, next)
  {
  }

  /** Four single steps ending at nothing make a four-piece list. */
  lemma ConsFour(p0: seq<Piece>, p1: seq<Piece>, p2: seq<Piece>, p3: seq<Piece>, a: Piece, b: Piece, c: Piece, d: Piece)
    requires p0 == [a] + p1 && p1 == [b] + p2 && p2 == [c] + p3 && p3 == [d] + []
    ensures p0 == [a, b, c, d]
  {
  }
}

=== FILE: text.dfy ===
/**
  The handful of Python `str` operations the bot relies on. A Dafny `string`
  is a sequence of Unicode scalar values; a Python `str` is a sequence of
  code points, which may also include lone surrogates. For every text
  without lone surrogates the two agree, and lengths agree with `len`.
*/
module Text {

  function Min(a: int, b: int): int {
    if a <= b then a else b
  }

  /** Python 3's `str.isspace` for a single code point: the Unicode
      White_Space characters plus the information separators U+001C..U+001F. */
  predicate IsSpace(c: char) {
    || c == ' '
    || ('\t' <= c <= '\r')
    || ('\U{1C}' <= c <= '\U{1F}')
    || c == '\U{85}'
    || c == '\U{A0}'
    || c == '\U{1680}'
    || ('\U{2000}' <= c <= '\U{200A}')
    || c == '\U{2028}'
    || c == '\U{2029}'
    || c == '\U{202F}'
    || c == '\U{205F}'
    || c == '\U{3000}'
  }

  /** Every character of `s` is whitespace (vacuously so for ""). */
  predicate IsBlank(s: string) {
    forall i :: 0 <= i < |s| ==> IsSpace(s[i])
  }

  /** Number of leading whitespace characters of `s`. */
  function LeadingSpaces(s: string): (n: nat)
    ensures n <= |s|
    ensures IsBlank(s[..n])
    ensures n == |s| || !IsSpace(s[n])
    decreases |s|
  {
    if |s| > 0 && IsSpace(s[0]) then
      var k := LeadingSpaces(s[1..]);
      assert forall i :: 1 <= i < k + 1 ==> s[1..][i - 1] == s[i];
      1 + k
    else 0
  }

  /** The end of `s` once its trailing whitespace is dropped, never going below `lo`. */
  function TrailingStart(s: string, lo: nat): (m: nat)
    requires lo <= |s|
    ensures lo <= m <= |s|
    ensures IsBlank(s[m..])
    ensures m == lo || !IsSpace(s[m - 1])
    decreases |s| - lo
  {
    if |s| > lo && IsSpace(s[|s| - 1]) then
      var m := TrailingStart(s[..|s| - 1], lo);
      assert s[m..] == s[..|s| - 1][m..] + [s[|s| - 1]];
      m
    else |s|
  }

  /** Python's `s.strip()`: `s` without its leading and trailing whitespace. */
  function Strip(s: string): (r: string)
    ensures |r| <= |s|
    ensures r == [] <==> IsBlank(s)
    ensures r != [] ==> !IsSpace(r[0]) && !IsSpace(r[|r| - 1])
  {
    var a := LeadingSpaces(s);
    var b := TrailingStart(s, a);
    assert IsBlank(s) ==> a == |s|;
    assert a == b ==> s == s[..a] + s[b..];
    s[a..b]
  }

  /** Stripping twice is stripping once. */
  lemma StripIdempotent(s: string)
    ensures Strip(Strip(s)) == Strip(s)
  {
    var r := Strip(s);
    if r != [] {
      assert LeadingSpaces(r) == 0;
      assert TrailingStart(r, 0) == |r|;
    }
  }

  /** A string with no whitespace at either end is its own strip. */
  lemma StripTrimmed(s: string)
    requires s != [] ==> !IsSpace(s[0]) && !IsSpace(s[|s| - 1])
    ensures Strip(s) == s
  {
    if s != [] {
      assert LeadingSpaces(s) == 0;
      assert TrailingStart(s, 0) == |s|;
    }
  }

  /** The visible characters of `s`: `s` with every whitespace character removed. */
  function Visible(s: string): (v: string)
    ensures |v| <= |s|
    decreases |s|
  {
    if s == [] then ""
    else if IsSpace(s[0]) then Visible(s[1..])
    else [s[0]] + Visible(s[1..])
  }

  /** `"".join(xs)`. */
  function Concat(xs: seq<string>): string
    decreases |xs|
  {
    if xs == [] then "" else xs[0] + Concat(xs[1..])
  }

  lemma {:induction false} VisibleAppend(a: string, b: string)
    ensures Visible(a + b) == Visible(a) + Visible(b)
    decreases |a|
  {
    if a == [] {
      assert a + b == b;
    } else {
      assert (a + b)[1..] == a[1..] + b;
      VisibleAppend(a[1..], b);
    }
  }

  lemma {:induction false} VisibleBlank(s: string)
    requires IsBlank(s)
    ensures Visible(s) == ""
    decreases |s|
  {
    if s != [] {
      VisibleBlank(s[1..]);
    }
  }

  /** Stripping removes only a whitespace prefix and a whitespace suffix. */
  lemma StripIsSlice(s: string) returns (a: nat, b: nat)
    ensures a <= b <= |s| && Strip(s) == s[a..b]
    ensures IsBlank(s[..a]) && IsBlank(s[b..])
  {
    a := LeadingSpaces(s);
    b := TrailingStart(s, a);
  }

  /** Stripping never removes a visible character. */
  lemma VisibleStrip(s: string)
    ensures Visible(Strip(s)) == Visible(s)
  {
    var a, b := StripIsSlice(s);
    assert s == s[..a] + s[a..b] + s[b..];
    VisibleAppend(s[..a] + s[a..b], s[b..]);
    VisibleAppend(s[..a], s[a..b]);
    VisibleBlank(s[..a]);
    VisibleBlank(s[b..]);
  }

  /** `s.startswith(p)`. */
  predicate StartsWith(s: string, p: string) {
    |p| <= |s| && s[..|p|] == p
  }

  /**
    Python's `s.rfind(c, lo, hi)` for a one-character needle and non-negative
    bounds: the highest index `i` with `lo <= i < hi` (`hi` clamped to `|s|`)
    holding `c`, or -1 when there is none.
  */
  function RFind(s: string, c: char, lo: nat, hi: nat): (r: int)
    ensures r == -1 || (lo <= r < hi && r < |s| && s[r] == c)
    ensures r == -1 ==> forall i :: lo <= i < hi && i < |s| ==> s[i] != c
    ensures r != -1 ==> forall i :: r < i < hi && i < |s| ==> s[i] != c
    decreases hi
  {
    if hi > |s| then RFind(s, c, lo, |s|)
    else if hi <= lo then -1
    else if s[hi - 1] == c then hi - 1
    else RFind(s, c, lo, hi - 1)
  }

  /** The fence marker of Markdown code blocks. */
  const Fence: string := "```"

  /** `needle` occurs in `s` starting at index `i`. */
  predicate OccursAt(s: string, needle: string, i: int) {
    0 <= i && i + |needle| <= |s| && s[i..i + |needle|] == needle
  }

  /** Python's `needle in s`. */
  predicate Contains(s: string, needle: string) {
    exists i :: 0 <= i <= |s| - |needle| && OccursAt(s, needle, i)
  }

  /** Python's `s.count("```")`: non-overlapping occurrences, scanned left to right. */
  function CountFences(s: string): (n: nat)
    ensures n > 0 ==> Contains(s, Fence)
    ensures 3 * n <= |s|
    decreases |s|
  {
    if |s| < 3 then 0
    else if s[..3] == Fence then
      var n := CountFences(s[3..]);
      assert OccursAt(s, Fence, 0);
      1 + n
    else
      var n := CountFences(s[1..]);
      if n > 0 then
        var i :| OccursAt(s[1..], Fence, i);
        assert s[i + 1..i + 1 + |Fence|] == s[1..][i..i + |Fence|];
        assert OccursAt(s, Fence, i + 1);
        n
      else n
  }

  // ---------------------------------------------------------------- numbers

  predicate IsDigit(c: char) {
    '0' <= c <= '9'
  }

  /** Python's `s.isdigit()` for ASCII digits: non-empty and all digits. */
  predicate IsDigits(s: string) {
    |s| > 0 && forall i :: 0 <= i < |s| ==> IsDigit(s[i])
  }

  function DigitChar(d: nat): (c: char)
    requires d < 10
    ensures IsDigit(c)
  {
    ['0', '1', '2', '3', '4', '5', '6', '7', '8', '9'][d]
  }

  function DigitValue(c: char): (d: nat)
    requires IsDigit(c)
    ensures d < 10
    ensures DigitChar(d) == c
  {
    if c == '0' then 0 else if c == '1' then 1 else if c == '2' then 2
    else if c == '3' then 3 else if c == '4' then 4 else if c == '5' then 5
    else if c == '6' then 6 else if c == '7' then 7 else if c == '8' then 8
    else 9
  }

  /** `str(n)` for a natural number: its decimal digits, no leading zero. */
  function ShowNat(n: nat): (s: string)
    ensures IsDigits(s)
    ensures |s| > 1 ==> s[0] != '0'
    decreases n
  {
    if n < 10 then [DigitChar(n)] else ShowNat(n / 10) + [DigitChar(n % 10)]
  }

  /** `str(i)` for any integer. */
  function ShowInt(i: int): (s: string)
    ensures s != []
    ensures i >= 0 ==> IsDigits(s)
    ensures i < 0 ==> s[0] == '-' && IsDigits(s[1..])
  {
    if i < 0 then "-" + ShowNat(-i) else ShowNat(i)
  }

  /** `int(s)` for a string of ASCII digits (leading zeros allowed). */
  function DecimalValue(s: string): nat
    requires forall i :: 0 <= i < |s| ==> IsDigit(s[i])
    decreases |s|
  {
    if s == [] then 0 else 10 * DecimalValue(s[..|s| - 1]) + DigitValue(s[|s| - 1])
  }

  /** Concatenation is associative (stated once, for proofs that regroup a concatenation). */
  lemma Associative<T>(a: seq<T>, b: seq<T>, c: seq<T>)
    ensures a + b + c == a + (b + c)
  {
  }

  /** Past the head, a cons reads the tail one place back. */
  lemma ConsAt<T>(x: T, xs: seq<T>, j: nat)
    requires 0 < j <= |xs|
    ensures ([x] + xs)[j] == xs[j - 1]
  {
  }

  /** Reading back what `ShowNat` wrote gives the number again. */
  lemma {:induction false} DecimalValueShowNat(n: nat)
    ensures DecimalValue(ShowNat(n)) == n
    decreases n
  {
    if n >= 10 {
      var s := ShowNat(n);
      assert s[..|s| - 1] == ShowNat(n / 10);
      assert s[|s| - 1] == DigitChar(n % 10);
      DigitValueChar(n % 10);
      DecimalValueShowNat(n / 10);
    }
  }

  /** Like Python's `int`, a leading zero does not change the value read. */
  lemma {:induction false} LeadingZeroIgnored(s: string)
    requires forall i :: 0 <= i < |s| ==> IsDigit(s[i])
    ensures DecimalValue("0" + s) == DecimalValue(s)
    decreases |s|
  {
    var t := "0" + s;
    if s != [] {
      assert t[..|t| - 1] == "0" + s[..|s| - 1];
      assert t[|t| - 1] == s[|s| - 1];
      LeadingZeroIgnored(s[..|s| - 1]);
    } else {
      assert t[..0] == [];
    }
  }

  lemma DigitValueChar(d: nat)
    requires d < 10
    ensures DigitValue(DigitChar(d)) == d
  {
  }

  // ------------------------------------------------------------ filtering

  /**
    The images under `f` of the elements `keep` accepts, in their order: a
    list comprehension with a filter, `[f(x) for x in xs if keep(x)]`.
  */
  function FilterMap<T, U>(xs: seq<T>, keep: T -> bool, f: T -> U): (ys: seq<U>)
    ensures |ys| <= |xs|
    decreases |xs|
  {
    if xs == [] then []
    else (if keep(xs[0]) then [f(xs[0])] else []) + FilterMap(xs[1..], keep, f)
  }

  /** `idx` lists, in increasing order, exactly the positions of the elements `keep` accepts. */
  predicate Selection<T>(xs: seq<T>, keep: T -> bool, idx: seq<nat>) {
    && (forall j :: 0 <= j < |idx| ==> idx[j] < |xs| && keep(xs[idx[j]]))
    && (forall j, k :: 0 <= j < k < |idx| ==> idx[j] < idx[k])
    && (forall i :: 0 <= i < |xs| && keep(xs[i]) ==> i in idx)
  }

  /**
    The result of a filtered map is exactly the images of the accepted
    elements, in order: there is an increasing list of exactly the accepted
    positions whose `j`-th entry is where the `j`-th result comes from.
  */
  lemma {:induction false} FilterMapSelects<T, U>(xs: seq<T>, keep: T -> bool, f: T -> U) returns (idx: seq<nat>)
    ensures Selection(xs, keep, idx)
    ensures |idx| == |FilterMap(xs, keep, f)|
    ensures forall j :: 0 <= j < |idx| ==> idx[j] < |xs| && FilterMap(xs, keep, f)[j] == f(xs[idx[j]])
    decreases |xs|
  {
    if xs == [] {
      idx := [];
    } else {
      var rest := FilterMapSelects(xs[1..], keep, f);
      var shifted := Shift(rest);
      ShiftSelection(xs, keep, rest);
      ShiftImages(xs, keep, f, rest);
      if keep(xs[0]) {
        idx := [0] + shifted;
        KeptHeadSelection(xs, keep, shifted);
        KeptHeadImages(xs, keep, f, shifted);
      } else {
        idx := shifted;
        DroppedHeadSelection(xs, keep, shifted);
      }
    }
  }

  /** Every index moved one place on. */
  function Shift(idx: seq<nat>): (r: seq<nat>)
    ensures |r| == |idx|
    ensures forall j :: 0 <= j < |idx| ==> r[j] == idx[j] + 1
  {
    seq(|idx|, j requires 0 <= j < |idx| => idx[j] + 1)
  }

  /** The tail's selection, moved one place on, selects the tail's accepted positions inside the whole. */
  lemma ShiftSelection<T>(xs: seq<T>, keep: T -> bool, rest: seq<nat>)
    requires xs != [] && Selection(xs[1..], keep, rest)
    ensures var shifted := Shift(rest);
      && (forall j :: 0 <= j < |shifted| ==> 0 < shifted[j] < |xs| && keep(xs[shifted[j]]))
      && (forall j, k :: 0 <= j < k < |shifted| ==> shifted[j] < shifted[k])
      && (forall i :: 0 < i < |xs| && keep(xs[i]) ==> i in shifted)
  {
    var shifted := Shift(rest);
    forall j | 0 <= j < |shifted|
      ensures 0 < shifted[j] < |xs| && keep(xs[shifted[j]])
    {
      assert xs[1..][rest[j]] == xs[shifted[j]];
    }
    forall i | 0 < i < |xs| && keep(xs[i])
      ensures i in shifted
    {
      assert xs[1..][i - 1] == xs[i];
      var j :| 0 <= j < |rest| && rest[j] == i - 1;
      assert shifted[j] == i;
    }
  }

  /** The tail's images, read against the whole list through the shifted positions. */
  lemma ShiftImages<T, U>(xs: seq<T>, keep: T -> bool, f: T -> U, rest: seq<nat>)
    requires xs != []
    requires |rest| == |FilterMap(xs[1..], keep, f)|
    requires forall j :: 0 <= j < |rest| ==> rest[j] < |xs| - 1 && FilterMap(xs[1..], keep, f)[j] == f(xs[1..][rest[j]])
    ensures forall j :: 0 <= j < |rest| ==> Shift(rest)[j] < |xs| && FilterMap(xs[1..], keep, f)[j] == f(xs[Shift(rest)[j]])
  {
    forall j | 0 <= j < |rest|
      ensures Shift(rest)[j] < |xs| && FilterMap(xs[1..], keep, f)[j] == f(xs[Shift(rest)[j]])
    {
      assert xs[1..][rest[j]] == xs[rest[j] + 1];
    }
  }

  /** A rejected head leaves the shifted selection as it is. */
  lemma DroppedHeadSelection<T>(xs: seq<T>, keep: T -> bool, shifted: seq<nat>)
    requires xs != [] && !keep(xs[0])
    requires forall j :: 0 <= j < |shifted| ==> 0 < shifted[j] < |xs| && keep(xs[shifted[j]])
    requires forall j, k :: 0 <= j < k < |shifted| ==> shifted[j] < shifted[k]
    requires forall i :: 0 < i < |xs| && keep(xs[i]) ==> i in shifted
    ensures Selection(xs, keep, shifted)
  {
  }

  /** An accepted head goes in front of the shifted selection. */
  lemma KeptHeadSelection<T>(xs: seq<T>, keep: T -> bool, shifted: seq<nat>)
    requires xs != [] && keep(xs[0])
    requires forall j :: 0 <= j < |shifted| ==> 0 < shifted[j] < |xs| && keep(xs[shifted[j]])
    requires forall j, k :: 0 <= j < k < |shifted| ==> shifted[j] < shifted[k]
    requires forall i :: 0 < i < |xs| && keep(xs[i]) ==> i in shifted
    ensures Selection(xs, keep, [0] + shifted)
  {
    var idx := [0] + shifted;
    assert forall j :: 0 < j < |idx| ==> idx[j] == shifted[j - 1];
    assert forall i :: 0 <= i < |xs| && keep(xs[i]) ==> i in idx by {
      forall i | 0 <= i < |xs| && keep(xs[i]) ensures i in idx {
        if i > 0 {
          var j :| 0 <= j < |shifted| && shifted[j] == i;
          assert idx[j + 1] == i;
        }
      }
    }
  }

  /** An accepted head's image comes first, ahead of the tail's images. */
  lemma KeptHeadImages<T, U>(xs: seq<T>, keep: T -> bool, f: T -> U, shifted: seq<nat>)
    requires xs != [] && keep(xs[0])
    requires |shifted| == |FilterMap(xs[1..], keep, f)|
    requires forall j :: 0 <= j < |shifted| ==> shifted[j] < |xs| && FilterMap(xs[1..], keep, f)[j] == f(xs[shifted[j]])
    ensures |[0] + shifted| == |FilterMap(xs, keep, f)|
    ensures forall j :: 0 <= j < |shifted| + 1 ==>
      ([0] + shifted)[j] < |xs| && FilterMap(xs, keep, f)[j] == f(xs[([0] + shifted)[j]])
  {
    var tail := FilterMap(xs[1..], keep, f);
    var ys := FilterMap(xs, keep, f);
    var idx := [0] + shifted;
    assert ys == [f(xs[0])] + tail;
    forall j | 0 <= j < |idx|
      ensures idx[j] < |xs| && ys[j] == f(xs[idx[j]])
    {
      if j > 0 {
        ConsAt(0, shifted, j);
        ConsAt(f(xs[0]), tail, j);
      }
    }
  }

  /** When every element is accepted, each is mapped in place. */
  lemma {:induction false} FilterMapAllKept<T, U>(xs: seq<T>, keep: T -> bool, f: T -> U)
    requires forall i :: 0 <= i < |xs| ==> keep(xs[i])
    ensures |FilterMap(xs, keep, f)| == |xs|
    ensures forall i :: 0 <= i < |xs| ==> FilterMap(xs, keep, f)[i] == f(xs[i])
    decreases |xs|
  {
    if xs != [] {
      var rest := FilterMap(xs[1..], keep, f);
      assert forall i :: 0 <= i < |xs[1..]| ==> keep(xs[1..][i]);
      FilterMapAllKept(xs[1..], keep, f);
      assert FilterMap(xs, keep, f) == [f(xs[0])] + rest;
      forall i | 0 < i < |xs|
        ensures FilterMap(xs, keep, f)[i] == f(xs[i])
      {
        ConsAt(f(xs[0]), rest, i);
        assert xs[1..][i - 1] == xs[i];
      }
    }
  }

  /** When no element is accepted, nothing is left. */
  lemma {:induction false} FilterMapNoneKept<T, U>(xs: seq<T>, keep: T -> bool, f: T -> U)
    requires forall i :: 0 <= i < |xs| ==> !keep(xs[i])
    ensures FilterMap(xs, keep, f) == []
    decreases |xs|
  {
    if xs != [] {
      assert forall i :: 0 <= i < |xs[1..]| ==> !keep(xs[1..][i]);
      FilterMapNoneKept(xs[1..], keep, f);
    }
  }

  // ------------------------------------------------------ split and join

  /** Python's `s.split(sep)` with a one-character separator: always at least one field. */
  function SplitOn(s: string, sep: char): (r: seq<string>)
    ensures |r| >= 1
    ensures forall i :: 0 <= i < |r| ==> sep !in r[i]
    ensures Join(r, sep) == s
    decreases |s|
  {
    if s == [] then [""]
    else
      var rest := SplitOn(s[1..], sep);
      if s[0] == sep then [""] + rest
      else
        var r := [[s[0]] + rest[0]] + rest[1..];
        assert r[1..] == rest[1..];
        r
  }

  /** `sep.join(xs)`. */
  function Join(xs: seq<string>, sep: char): string
    decreases |xs|
  {
    if xs == [] then ""
    else if |xs| == 1 then xs[0]
    else xs[0] + [sep] + Join(xs[1..], sep)
  }

  /** A separator-free string splits into itself alone. */
  lemma {:induction false} SplitOnNoSeparator(s: string, sep: char)
    requires sep !in s
    ensures SplitOn(s, sep) == [s]
    decreases |s|
  {
    if s != [] {
      assert sep !in s[1..];
      SplitOnNoSeparator(s[1..], sep);
    }
  }

  /** Splitting `a + sep + b` with a separator-free `a` peels `a` off as the first field. */
  lemma {:induction false} SplitOnPrefix(a: string, sep: char, b: string)
    requires sep !in a
    ensures SplitOn(a + [sep] + b, sep) == [a] + SplitOn(b, sep)
    decreases |a|
  {
    var s := a + [sep] + b;
    if a == [] {
      assert s[1..] == b;
    } else {
      assert s[1..] == a[1..] + [sep] + b;
      assert sep !in a[1..];
      SplitOnPrefix(a[1..], sep, b);
      assert [a[0]] + a[1..] == a;
    }
  }

  /** `s.split(sep)` inverts `sep.join(xs)` when no field holds the separator. */
  lemma {:induction false} SplitJoin(xs: seq<string>, sep: char)
    requires |xs| >= 1
    requires forall i :: 0 <= i < |xs| ==> sep !in xs[i]
    ensures SplitOn(Join(xs, sep), sep) == xs
    decreases |xs|
  {
    if |xs| == 1 {
      SplitOnNoSeparator(xs[0], sep);
    } else {
      SplitJoin(xs[1..], sep);
      SplitOnPrefix(xs[0], sep, Join(xs[1..], sep));
      assert [xs[0]] + xs[1..] == xs;
    }
  }
}
